=== FILE: README.md ===
# Time-lock app: escrow ledger, frontend mirror and oracle permission script

A Dafny model of the 1Hive time-lock Aragon app. The app is a forwarder:
to have an action forwarded to the DAO, an account pays a fee in a
configured ERC-20 token into escrow, and the fee is held for a
configured duration. Every payment becomes a *lock* `(unlockTime,
lockAmount)` at the tail of the account's queue. `withdrawTokens(k)`
releases matured locks from the head of the queue, oldest first.

The model has three parts.

* **The on-chain ledger**, in two variants:
  * `TimeLock`, the penalty-escalating variant. The fee and the hold time
    grow by `active * base * factor / 10^18` (rounded down) for every lock
    the caller still holds.
  * `FlatLock`, the flat-fee variant. Every forward costs the same. The
    flat app's storage is TimeLock's without the penalty factor, so it
    reuses TimeLock's state (with a factor of zero it never reads), its
    setters, its withdrawal and the part of forward behind the gate.

  Both share the `Escrow` module, which holds the per-account queues, the
  token custody, deposit and withdrawal. Every transaction is a pure
  function from state to `Result<Outcome>`. A revert leaves the state as
  it was. The solidity sources of the contracts are not part of this
  model. Their behaviour is the one `test/TimeLockTest.js` and
  `test/LockTest.js` pin down, proved here for all states rather than for
  the single deployment those tests use.
* **The frontend mirror.** This part covers:
  * `Store`: the background store reducer of `app/src/script.js`;
  * `Locks`: the helpers of `app/src/lib/lock-utils.js`;
  * `LockSettings`: the loaded-settings test of `app/src/lib/lock-settings.js`;
  * `AppState`: `app/src/app-state-reducer.js`, over a small model of
    JavaScript values (`JsValues`).

  `Mirror` connects the contract to the store. Suppose an account is
  connected, and the queue read back for it is the chain's queue at the
  point the event stream has reached. Suppose further that the events of
  each later committed transaction are delivered in a block newer than
  the store's creation block. Then the store's lock list stays equal to
  that account's queue on chain.
  `LockTable` models how `app/src/components/LockTable.js` splits those
  locks into an unlocked balance and a list of locked entries.
* **`scripts/setTokenOracle.js`** (`TokenOracle`). This covers the
  wildcard grantee `ANY_ENTITY`, the packing of oracle id, comparison and
  oracle address into one ACL parameter, and the defaulting of the
  positional arguments.

Modules, in dependency order:
* `Results`: revert reasons, `Result`, `Option`.
* `Locks`.
* `MapSums`: the sum over a map, used for the solvency invariant.
* `Erc20`.
* `Aragon`: roles, ACL and events.
* `Escrow`.
* `TimeLock` and `TimeLockProperties`.
* `FlatLock` and `FlatLockProperties`.
* `Store`.
* `Mirror`.
* `JsValues`.
* `LockSettings`.
* `AppState`.
* `LockTable`.
* `TokenOracle`.

## Model

| member | source | states |
|---|---|---|
| Locks.IsUnlocked | app/src/lib/lock-utils.js:3-5 | a lock is shown unlocked from its unlock time on; its partners `Locks.UnlockedStaysUnlocked` (monotone in time) and `Escrow.MaturedIsShownUnlocked` (agrees with the contract off the boundary second) state what that means |
| Locks.Total | app/src/lib/lock-utils.js:7-9 | reduceTotal: the amounts summed from the first lock to the last, from 0; its algebra (empty, cons, append, prefix, removal, permutation, partition) is stated by the Locks.Total* lemmas below |
| Locks.UnlockedStaysUnlocked | app/src/lib/lock-utils.js:3-5 | a lock shown as unlocked stays unlocked at every later time, and one still locked later was locked before |
| Locks.TotalEmpty | app/src/lib/lock-utils.js:7-9 | the total of no locks is 0 (the reduce's initial BN) |
| Locks.TotalAppend | app/src/lib/lock-utils.js:7-9 | the total of a concatenation is the sum of the two totals |
| Locks.TotalCons | app/src/lib/lock-utils.js:7-9 | the total of a list is its head's amount plus the total of its tail |
| Locks.TotalPrefix | app/src/lib/lock-utils.js:7-9 | a prefix and the matching suffix split the total, so a prefix never exceeds it |
| Locks.TotalRemove | app/src/lib/lock-utils.js:7-9 | taking the lock at any position out of the list takes exactly its amount out of the total |
| Locks.TotalBoundsEach | app/src/lib/lock-utils.js:7-9 | every lock's amount is at most the total |
| Locks.TotalPermutation | app/src/lib/lock-utils.js:7-9 | any two lists with the same multiset of locks have the same total |
| Locks.Filter | app/src/components/LockTable.js:20-23 | `locks.filter(p)`: no longer than the input, and a lock is kept exactly when it is in the input and p holds for it |
| Locks.FilterAppend | app/src/components/LockTable.js:20-23 | filtering a concatenation is the concatenation of the filtered parts, so kept locks keep their relative order |
| Locks.FilterCount | app/src/components/LockTable.js:20-23 | a kept lock occurs in the result exactly as often as in the input, any other lock not at all |
| Locks.FilterCounts | app/src/components/LockTable.js:20-23 | the same, for every lock at once |
| Locks.FilterAgree | app/src/components/LockTable.js:23 | two predicates that agree on the list's locks keep the same locks |
| Locks.FilterSplit | app/src/components/LockTable.js:20-23 | a predicate and its complement together keep every lock of the list exactly once (multiset union) |
| Locks.TotalFilterPartition | app/src/components/LockTable.js:20-24 | for any partition by a predicate and its complement, the two totals add up to the overall total |
| Locks.Unlocked | app/src/lib/lock-utils.js:3-5 | the locks isUnlocked holds for, each as often as in the input and none other |
| Locks.StillLocked | app/src/lib/lock-utils.js:3-5 | the locks isUnlocked fails for, each as often as in the input and none other |
| Locks.TotalPartition | app/src/lib/lock-utils.js:3-9 | the unlocked and still-locked locks together are the input's multiset, and their totals add up to the overall total |
| Erc20.Approve | test/TimeLockTest.js:304-310 | the allowance becomes exactly the approved amount; nothing else changes |
| Erc20.TransferFrom | test/TimeLockTest.js:303-351 | the pull succeeds exactly when balance and allowance both cover it; the payer loses the amount from balance and allowance, custody gains it, every other holder is untouched |
| Erc20.Transfer | test/TimeLockTest.js:447-468 | the payout succeeds exactly when custody covers it; the payee gains the amount and custody loses it |
| Erc20.TransferFromConserves | test/TimeLockTest.js:313-339 | a pull into custody conserves the token supply |
| Erc20.TransferIn | test/TimeLockTest.js:323-325 | a holder's plain transfer to the escrow's address succeeds exactly when the balance covers it; the holder loses the amount, custody gains it, allowances and other holders are untouched. The plain transfer belongs to the token's ERC-20 interface; no test calls it, and the tests observe custody only through `balanceOf(app)` |
| Erc20.TransferInConserves | test/TimeLockTest.js:323-325 | a plain transfer into custody conserves the token supply. The plain transfer belongs to the token's ERC-20 interface; no test calls it, and the tests observe custody only through `balanceOf(app)` |
| Erc20.TransferConserves | test/TimeLockTest.js:447-468 | a payout out of custody conserves the token supply |
| Escrow.Deposit | test/TimeLockTest.js:303-351 | the deposit commits exactly when the payer's balance and allowance cover the lock, and otherwise reverts with LOCK_TRANSFER_REVERTED; on success the lock joins the tail of the payer's queue, every other queue is unchanged, the amount moves from the payer's balance and allowance into custody, and every other holder's balance and allowance is unchanged |
| Escrow.MaturedIsShownUnlocked | app/src/lib/lock-utils.js:3-5 | a lock the contract lets go is shown unlocked by the frontend; the two agree everywhere except at the exact unlock time |
| Escrow.MaturedPrefix | test/TimeLockTest.js:427-484 | the count is at most k, all locks before it have matured, and the lock at the count (if below k) has not |
| Escrow.MaturedPrefixUnique | test/TimeLockTest.js:427-484 | any count with those properties is the matured run, so the run is uniquely determined |
| Escrow.ScanMatured | test/TimeLockTest.js:447-468 | a stand-alone loop formulation of the withdrawal (Withdraw itself uses MaturedPrefix and Total): it stops exactly at the end of the matured run, and what it owes is the total of the locks it passed |
| Escrow.Withdraw | test/TimeLockTest.js:427-484 | it reverts with LOCK_TOO_MANY_WITHDRAW_LOCKS exactly when k exceeds the queue. Otherwise the matured run among the first k locks leaves the head, the rest stays in order, their total is paid back, other accounts' queues and balances are untouched, and no allowance changes. With nothing matured the escrow is unchanged. A solvent escrow never fails the payout |
| Escrow.DepositKeepsSolvent | test/TimeLockTest.js:303-344 | a deposit adds to custody exactly what it adds to the active locks, so the surplus beyond them is unchanged and custody keeps covering them |
| Escrow.WithdrawKeepsSolvent | test/TimeLockTest.js:447-484 | a withdrawal takes out of custody exactly what it takes out of the active locks, so the surplus is unchanged and custody keeps covering them |
| Escrow.Receive | test/TimeLockTest.js:323-325 | a plain token transfer to the escrow's address commits exactly when the sender's balance covers it; custody grows by the amount, no queue, allowance or other holder's balance changes. The plain transfer belongs to the token's ERC-20 interface; no test calls it, and the tests observe custody only through `balanceOf(app)` |
| Escrow.ReceiveKeepsSolvent | test/TimeLockTest.js:323-325 | tokens sent outside a lock only grow the surplus, by exactly their amount; custody keeps covering the locks and the supply is conserved. The plain transfer belongs to the token's ERC-20 interface; no test calls it, and the tests observe custody only through `balanceOf(app)` |
| Escrow.DepositConserves | test/TimeLockTest.js:313-339 | a deposit neither creates nor destroys tokens |
| Escrow.WithdrawConserves | test/TimeLockTest.js:447-468 | a withdrawal neither creates nor destroys tokens |
| TimeLock.Deployed | test/TimeLockTest.js:37-50 | a fresh app instance is uninitialised, has run no script and holds no locks |
| TimeLock.SpamPenalty | test/TimeLockTest.js:211-278 | amount and duration are the floor of active·base·factor over 10^18, stated by the division bounds |
| TimeLock.GetSpamPenalty | test/TimeLockTest.js:211-222 | getSpamPenalty for the caller: no penalty without active locks or without a factor; `TimeLock.SpamPenalty` states its value |
| TimeLock.CanForward | test/TimeLockTest.js:84-95 | canForward: only an initialised app can forward; the role decides the rest (`TimeLock.Forward`) |
| TimeLock.ForwardFee | test/TimeLockTest.js:153-207 | the fee is paid in the configured token and never below the base amount |
| TimeLock.NextLock | test/TimeLockTest.js:365-406 | the next lock holds exactly the forward fee and unlocks no earlier than now plus the base duration |
| TimeLock.Initialize | test/TimeLockTest.js:52-77 | a second initialize reverts with INIT_ALREADY_INITIALIZED; the first stores all four settings, marks the app initialised and leaves the escrow alone |
| TimeLock.ChangeLockDuration | test/TimeLockTest.js:97-112 | it succeeds exactly for a holder of CHANGE_DURATION_ROLE on an initialised app, else APP_AUTH_FAILED; only the duration changes and ChangeLockDuration is emitted |
| TimeLock.ChangeLockAmount | test/TimeLockTest.js:114-129 | it succeeds exactly for a holder of CHANGE_AMOUNT_ROLE on an initialised app, else APP_AUTH_FAILED; only the amount changes and ChangeLockAmount is emitted |
| TimeLock.ChangeSpamPenaltyFactor | test/TimeLockTest.js:131-151 | it succeeds exactly for a holder of CHANGE_SPAM_PENALTY_ROLE on an initialised app, else APP_AUTH_FAILED; only the factor changes |
| TimeLock.Lodge | test/TimeLockTest.js:303-351 | behind the gate, both variants' forward commits exactly when balance and allowance cover the lock and the script runs, and reverts with LOCK_TRANSFER_REVERTED on a short allowance. On success the lock joins the tail, the amount moves from balance and allowance into custody, the script runs once, nothing but escrow and executed scripts changes, and NewLock is emitted |
| TimeLock.Forward | test/TimeLockTest.js:282-351 | it commits exactly when the gate passes, balance and allowance cover the fee, and the script runs. The reverts are LOCK_CAN_NOT_FORWARD without the role and LOCK_TRANSFER_REVERTED without allowance. On success the fee moves to custody, one lock joins the tail, the script runs once, and NewLock is emitted |
| TimeLock.WithdrawTokens | test/TimeLockTest.js:409-468 | it reverts with LOCK_TOO_MANY_WITHDRAW_LOCKS exactly when k exceeds the queue; on success the state is the escrow withdrawal's result, and Withdrawal is emitted with the number of locks released |
| TimeLock.WithdrawAllTokens | test/TimeLockTest.js:470-484 | it never asks for too many locks, and it always commits on a solvent escrow |
| TimeLock.TransferToApp | test/TimeLockTest.js:323-325 | a token transfer to the app's address commits exactly when the balance covers it, grows custody by the amount, changes no queue or setting, and emits no app event. The plain transfer belongs to the token's ERC-20 interface; no test calls it, and the tests observe custody only through `balanceOf(app)` |
| TimeLock.IncreaseTime | test/TimeLockTest.js:456-457 | time never goes back, and the escrow and settings are untouched |
| TimeLock.ApproveApp | test/TimeLockTest.js:304-310 | the app's allowance becomes the approved amount, and no queue changes |
| TimeLockProperties.NoPenaltyWithoutLocks | test/TimeLockTest.js:211-222 | with no active lock the penalty is (0, 0) and the fee is (token, lockAmount) |
| TimeLockProperties.PenaltyWithOneLock | test/TimeLockTest.js:248-258 | with one active lock the penalty is the factor's share of one base amount and one base duration |
| TimeLockProperties.PenaltyMonotone | test/TimeLockTest.js:248-278 | more active locks never lower the penalty amount or duration |
| TimeLockProperties.ZeroFactorIsFlat | test/TimeLockTest.js:11-26 | a zero factor gives no penalty, so the fee is always the base amount |
| TimeLockProperties.HalfFactorWithOneLock | test/TimeLockTest.js:187-192 | at the test configuration (50%) with one lock, the penalty is (5·10^18, 30) and the fee is 15·10^18 |
| TimeLockProperties.SecondLockAtHalfFactor | test/TimeLockTest.js:365-381 | the second lock is stored as (now+90, 15·10^18) |
| TimeLockProperties.RaisedFactorWithOneLock | test/TimeLockTest.js:383-406 | after raising the factor to 100%, the penalty is (10·10^18, 60), the fee is 20·10^18, and the second lock holds 20·10^18 |
| TimeLockProperties.ThreeForwardsEscalate | test/TimeLockTest.js:409-425 | three forwards from an empty queue all commit, leave the locks (now+60, 10), (now+90, 15) and (now+120, 20) in tokens of 10^18, and cost 45 tokens |
| TimeLockProperties.ForwardKeepsOlderLocks | test/TimeLockTest.js:303-344 | a forward grows the queue by one, keeps the older locks, and the new tail holds the fee |
| TimeLockProperties.ForwardFailures | test/TimeLockTest.js:346-351 | a short allowance reverts with LOCK_TRANSFER_REVERTED (this span), and an uninitialised app reverts with LOCK_CAN_NOT_FORWARD (test/TimeLockTest.js:548-554) |
| TimeLock.Step | test/TimeLockTest.js:548-575 | a reverted call leaves the whole state as it was and a committed one yields its outcome's state; on an uninitialised app forward and the three setters revert, so they change nothing |
| TimeLockProperties.WithdrawBeforeMaturity | test/TimeLockTest.js:427-438 | while the head of the queue has not matured, a withdrawal of up to all locks commits and changes nothing, whatever the later locks are |
| TimeLockProperties.WithdrawTooMany | test/TimeLockTest.js:440-445 | asking for one lock more than held reverts with LOCK_TOO_MANY_WITHDRAW_LOCKS |
| TimeLockProperties.WithdrawOldestFirst | test/TimeLockTest.js:447-468 | once the head has matured, withdrawing one lock drops exactly the head and pays exactly its amount |
| TimeLockProperties.HeadMaturesFirst | test/TimeLockTest.js:447-468 | 61 seconds after the three escalating forwards, withdrawing one returns 10 tokens and leaves the 15 and 20 token locks queued |
| TimeLockProperties.WithdrawAllAfterMaturity | test/TimeLockTest.js:470-484 | once every lock has matured, withdrawAllTokens empties the queue and pays back its total |
| TimeLockProperties.ConfigChangeKeepsLocks | test/TimeLockTest.js:496-542 | changing the duration or the amount leaves every queue, and the outcome of every later withdrawal, as it was |
| TimeLockProperties.DeployedInvariant | test/TimeLockTest.js:37-50 | a fresh instance satisfies the solvency invariant, with all its custody as surplus |
| TimeLockProperties.StepKeepsInvariant | test/TimeLockTest.js:313-339 | every transaction, committed or reverted, keeps custody covering the active locks and conserves the supply; only a plain transfer to the app changes the surplus, and only upwards |
| FlatLock.ForwardFee | test/LockTest.js:53-58 | the flat fee is, for every caller, TimeLock's fee with a zero penalty factor: the token and the base amount |
| FlatLock.CanForward | test/LockTest.js:134-136 | only an initialised app can forward; an allowance covering the fee decides the rest (`FlatLock.Forward`) |
| FlatLock.Initialize | test/LockTest.js:36-51 | the three-argument initialize stores token, duration and amount once and leaves the escrow alone; a second call reverts with INIT_ALREADY_INITIALIZED |
| FlatLock.NextLock | test/LockTest.js:103-132 | the lock every forward creates holds exactly the flat fee |
| FlatLock.Forward | test/LockTest.js:103-136 | it commits exactly when the app is initialised, the allowance and balance cover lockAmount, and the script runs. Otherwise the gate reverts with LOCK_CAN_NOT_FORWARD. On success lockAmount moves to custody and one lock (now+duration, lockAmount) joins the tail |
| FlatLockProperties.FeeDoesNotEscalate | test/LockTest.js:53-58 | a forward adds a lock but leaves the fee as it was |
| FlatLockProperties.ForwardWithoutApproval | test/LockTest.js:134-136 | without an allowance covering the fee, forward reverts with LOCK_CAN_NOT_FORWARD |
| FlatLockProperties.WithdrawBeforeMaturity | test/LockTest.js:149-156 | while the head of the queue has not matured, a withdrawal of up to all locks commits and changes nothing |
| FlatLockProperties.WithdrawTooMany | test/LockTest.js:158-160 | one lock more than held reverts with LOCK_TOO_MANY_WITHDRAW_LOCKS |
| FlatLockProperties.ForwardOnce | test/LockTest.js:103-132 | a covered forward commits, appends (now+duration, lockAmount), and costs exactly one fee of balance and of allowance |
| FlatLockProperties.ThreeForwardsAreEqual | test/LockTest.js:141-147 | three forwards from an empty queue leave three equal locks |
| FlatLockProperties.EqualLocksMatureTogether | test/LockTest.js:162-191 | once they have matured, withdrawing one of three equal locks returns one fee and leaves two; withdrawing three empties the queue |
| FlatLockProperties.ConfigChangeKeepsLocks | test/LockTest.js:193-248 | changing duration or amount leaves every queue as it was |
| FlatLockProperties.ForwardKeepsInvariant | test/LockTest.js:108-127 | a flat forward keeps custody covering the active locks, leaves the surplus as it was and conserves the supply |
| FlatLockProperties.StepKeepsInvariant | test/LockTest.js:108-127 | every transaction keeps custody covering the active locks and conserves the supply; only a plain transfer to the app changes the surplus, and only upwards |
| Store.IsStale | app/src/script.js:32 | an event whose block number is set, non-zero and at or below the creation block is skipped; `Store.Reduce` states that such an event changes nothing |
| Store.ForConnected | app/src/script.js:119 | an event concerns the store only when an account is connected and addressesEqual matches it; `Store.NewLock` and `Store.NewWithdrawal` state both outcomes |
| Store.NewLock | app/src/script.js:115-125 | for the connected account the lock is appended at the tail with the earlier entries kept; for any other address, or none connected, the state is unchanged |
| Store.Slice | app/src/script.js:138 | slice(k) keeps exactly the entries from index k on, in order, and is empty when k reaches the length |
| Store.NewWithdrawal | app/src/script.js:127-140 | for the connected account exactly the first k locks are dropped; otherwise the state is unchanged |
| Store.UpdateLockDuration | app/src/script.js:101-106 | settings.duration becomes the new value; the other settings and all other fields are kept |
| Store.UpdateLockAmount | app/src/script.js:108-113 | settings.amount becomes the new value; the other settings and all other fields are kept |
| Store.Reduce | app/src/script.js:30-56 | a past event (non-zero block at or below the creation block) and an unknown event change nothing. Of the fresh events: ACCOUNTS_TRIGGER sets the account and its read-back queue; the sync events set only isSyncing; ChangeLockDuration and ChangeLockAmount set only their setting; NewLock appends and Withdrawal slices for the connected account and change nothing otherwise. Settings change only on the two settings events; locks change only on an account switch or a contract event |
| Mirror.ConnectingLoadsQueue | app/src/script.js:83-99 | a fresh ACCOUNTS_TRIGGER for account a connects a, loads exactly a's queue on chain, and so makes the store mirror the chain |
| Mirror.CommittedCallKeepsMirror | app/src/script.js:39-56 | every committed transaction's events, delivered in order in a newer block, keep the store mirroring the connected account's queue |
| Mirror.WithdrawMirrors | app/src/script.js:127-140 | dropping as many locks as the Withdrawal event reports reproduces the account's queue after the withdrawal |
| LockSettings.HasLoadedLockSettings | app/src/lib/lock-settings.js:9-12 | hasLoadedLockSettings, with `state || {}`; `LockSettings.HasLoadedIff` states exactly when it holds |
| LockSettings.AllLoadedIff | app/src/lib/lock-settings.js:11 | the reduce yields true exactly when its start value is true and every table key is truthy in the state |
| LockSettings.HasLoadedIff | app/src/lib/lock-settings.js:2-11 | loaded exactly when tokenAddress, lockDuration, lockAmount and griefingFactor are all truthy, so a missing key, 0 or "" means not loaded |
| LockSettings.NullishNotLoaded | app/src/lib/lock-settings.js:10-11 | a null or undefined state has not loaded |
| LockSettings.OnlyTableKeysMatter | app/src/lib/lock-settings.js:11 | states agreeing on the table's keys, and tables agreeing on their key column, give the same answer |
| AppState.NormaliseLock | app/src/app-state-reducer.js:17-20 | the per-lock map throws exactly on a null or undefined entry; otherwise it builds an object with exactly lockAmount (as a BN of the input's) and unlockTime (as a Date of the input's) |
| AppState.NormaliseLocks | app/src/app-state-reducer.js:16-21 | the map returns exactly when no entry is null or undefined, keeps the length, and maps each entry in place |
| AppState.AppStateReducer | app/src/app-state-reducer.js:4-23 | ready equals hasLoadedLockSettings. When not ready, the result is the input plus ready = false. When ready: absent locks become []; other fields are kept; no field is added besides ready and locks; it throws exactly when locks is truthy and not an array of non-null entries |
| AppState.ReadyLocksKeepOrder | app/src/app-state-reducer.js:16-21 | when ready, locks keeps its length and order, and each entry carries exactly its lockAmount (as a BN) and its unlockTime (as a Date) |
| AppState.NotReadyKeepsLocks | app/src/app-state-reducer.js:7-9 | when not ready, locks is passed through untouched |
| TokenOracle.PadEnd | scripts/setTokenOracle.js:19 | padEnd keeps the string as a prefix, reaches the target length, and fills only with the pad character |
| TokenOracle.AnyEntityShape | scripts/setTokenOracle.js:19 | ANY_ENTITY is "0x" and 40 'f's, 42 characters |
| TokenOracle.ShiftConstants | scripts/setTokenOracle.js:22-23 | ORACLE_PARAM_ID is 203·2^248 and EQ is 2^240 |
| TokenOracle.ParseHex | scripts/setTokenOracle.js:54 | it parses exactly the strings of hex digits, to a value below 16 to the power of their length |
| TokenOracle.ParseFormatHex | scripts/setTokenOracle.js:54 | parsing a value's fixed-width hex digits gives the value back |
| TokenOracle.Slice2 | scripts/setTokenOracle.js:54 | the first two characters are dropped, and the rest is kept |
| TokenOracle.Param | scripts/setTokenOracle.js:55 | `ORACLE_PARAM_ID.add(EQ).add(oracle)`; `TokenOracle.ParamFields` states that it unpacks to the three fields |
| TokenOracle.ParamFields | scripts/setTokenOracle.js:53-55 | for an address below 2^240, the packed parameter reads back as oracle id 203 in the top byte, comparison 1 in the next, and the address in the low 240 bits |
| TokenOracle.AddressDigitsParse | scripts/setTokenOracle.js:54 | the 40 hex digits after the prefix of an address parse, to a value below 16^40 |
| TokenOracle.AddressFitsParam | scripts/setTokenOracle.js:53-55 | every 42-character hex address parses below 2^240, so its parameter decodes back to oracle id and address |
| LockTable.Render | app/src/components/LockTable.js:20-24 | for any flag, the unlocked part keeps exactly the flagged locks, the locked part (`!unlocked.includes(l)`) exactly the others, together they are the input's multiset, and the two totals add up to the overall total |
| LockTable.NormalisedLockIsNeverFlagged | app/src/app-state-reducer.js:17-20 | every lock the app state holds reads `unlocked` as undefined, which is falsy |
| LockTable.AsWritten | app/src/components/LockTable.js:20-24 | as written the unlocked part is always empty with total 0, and every lock is listed as locked |
| LockTable.FilterAll | app/src/components/LockTable.js:23 | keeping every lock returns the list itself |
| LockTable.MaturedLockNotShownUnlocked | app/src/components/LockTable.js:20-21 | a lock of 5 that unlocked a second ago counts 0 in the unlocked balance as written, and 5 in the corrected table |
| LockTable.Corrected | app/src/components/LockTable.js:20-24 | with isUnlocked as the flag, the two parts are exactly Locks.Unlocked and Locks.StillLocked, and their totals add up to the overall total |
| TokenOracle.SetTokenOracle | scripts/setTokenOracle.js:36-55 | fewer than three arguments after argv[4] grant nothing; otherwise dao, app and oracle are taken by position, the grantee defaults to ANY_ENTITY, and the one parameter is the packed oracle word |

## Left out

- The solidity contracts (TimeLock.sol, Lock.sol) are not part of this model. Their behaviour is inferred from the two test suites, and where the tests leave something open the model makes a choice, listed below.
- Escrow.Matured: on-chain maturity is taken as strict (`unlockTime < now`). The tests always step past the unlock time, so every lemma about them holds under either reading. The frontend's `isUnlocked` is `<=`, and `Escrow.MaturedIsShownUnlocked` relates the two.
- Escrow.Withdraw: when only part of the requested locks has matured, the model releases the matured run from the head and stops at the first unmatured lock. The tests cover only the none-matured and all-matured cases.
- Escrow.Withdraw: a request with nothing matured commits and changes nothing (the tests observe only that the lock count stays the same).
- The zero-argument `withdrawTokens()` call on an uninitialised app (test/TimeLockTest.js:577-579) fails on the argument count, not on app logic. It is not modelled, and withdrawals are not gated on initialisation.
- TimeLock.ChangeLockDuration: the contract may keep the queue sorted by unlock time after a duration decrease. The model keeps insertion order, which is what the tests observe.
- uint256 arithmetic: amounts, times and the penalty product are unbounded naturals. SafeMath's overflow reverts are not modelled.
- TimeLock.ChangeSpamPenaltyFactor: no event is modelled, since the frontend does not handle one.
- Aragon.Event: the Withdrawal event carries the number of locks actually released. This is what the frontend's slice needs to stay in step.
- FlatLock.CanForward: the flat variant's gate is inferred from test/LockTest.js. Forwards succeed without any role being granted, and a missing approval reverts with LOCK_CAN_NOT_FORWARD. The gate is therefore taken as initialised and an allowance covering the fee.
- FlatLock.Initialize: the flat app has no penalty factor. Its state is TimeLock's with the factor set to zero, and that factor is never read.
- The ACL is a set of (account, role) grants. The Kernel, parameterised permissions and the oracle consulted at run time are not modelled.
- EVM script execution is the `scriptRuns` flag plus a record of scripts run. ExecutionTarget's counter is that record's length.
- Mirror.ConnectingLoadsQueue: the queue that `updateConnectedAccount` reads with `getWithdrawLocksCount` and `addressesWithdrawLocks` is taken to be the chain's queue at exactly the point the event stream has reached. The script reads it from the latest chain state while later events wait behind the reducer. A lock mined before the read whose NewLock event is delivered after it would be appended a second time. The mirror lemmas assume that read-back is atomic with event delivery.
- TimeLock.Lodge: the forwarded script is recorded, not run. The model takes it to touch neither the token's balances nor the app. A script that moved the escrow's tokens or called back into the app would be outside the solvency lemmas.
- Escrow.Solvent: custody is required to cover the active locks, not to equal them, because anyone may transfer tokens to the app's address (`TimeLock.TransferToApp`). The exact accounting is kept as the surplus, which only such a transfer changes. Transfers of the token between third parties do not touch the escrow and are not modelled.
- The frontend's I/O is left out: `retryEvery`, `initialize`, `initializeState`, `getTokenData`, `getLockSettings` and `getBlockNumber`. The block the store was created at is a parameter. `updateConnectedAccount`'s contract calls are replaced by the queue they read, carried on the ACCOUNTS_TRIGGER event.
- Store.ForConnected: `addressesEqual` is not part of this model. It is a function parameter, and the mirror lemma assumes it identifies exactly equal addresses.
- JsValues.Js: numbers are integers, so NaN and -0 are not modelled. `new BN(x)` and `new Date(x)` are opaque wrappers around their argument.
- AppState.AppStateReducer: the state is required to be an object, null or undefined (the store's state). Spreading a string, array or BN into the result is not modelled.
- TokenOracle.ParseHex: `new BN(s, 16)` does not reject non-hex characters. The model returns None for them, and the script then grants nothing (`BadOracleAddress`).
- TokenOracle.SetTokenOracle: `checkOracle`, the Kernel and ACL lookups, the grant transaction and logging are network I/O and are not modelled. The owner fallback from the environment is left out too.
- The React components (LockSettings, Locks, Title, App, MainButton, InfoBoxes, WithdrawLocks, Message, EmptyState) only render, and are not modelled. Of LockTable only the split at app/src/components/LockTable.js:20-24 is modelled; its rendering is not.
- LockTable.Render: `unlocked.includes(l)` compares objects by reference, and the model compares locks by value. They agree whenever the flag depends only on the lock's fields, as both the written `l.unlocked` and isUnlocked do.

## Findings

| source | as written | input that shows it | evidently intended | confidence | as-written member | corrected member |
|---|---|---|---|---|---|---|
| app/src/components/LockTable.js:20 | `locks.filter(l => l.unlocked)` reads a field that no lock carries: app/src/app-state-reducer.js:17-20 builds each lock with only lockAmount and unlockTime. So the unlocked balance is always 0 and every lock is listed as locked | one lock `(unlockTime 0, lockAmount 5)` viewed at time 1: isUnlocked holds, yet the unlocked balance is 0 | split on `isUnlocked(l.unlockTime, now)` from app/src/lib/lock-utils.js:3-5 | medium, not executed | LockTable.AsWritten | LockTable.Corrected |

=== FILE: app_state.dfy ===
/** app/src/app-state-reducer.js: marks the app ready once its settings
    are loaded and normalises the lock list for display. */
module AppState {
  import opened JsValues
  import LockSettings

  /** A call either returns a value or throws a TypeError. */
  datatype Completion<T> = Returns(value: T) | Throws

  /** `{...state}` for the app state: its fields, or none while unset. */
  function Fields(state: Js): map<string, Js>
  {
    if state.Obj? then state.fields else map[]
  }

  /** `lock => ({ lockAmount: new BN(lock.lockAmount), unlockTime: new Date(lock.unlockTime) })` */
  function NormaliseLock(lock: Js): (r: Completion<Js>)
    ensures r.Returns? <==> !IsNullish(lock)
    ensures r.Returns? ==>
      && r.value.Obj? && r.value.fields.Keys == {"lockAmount", "unlockTime"}
      && Get(r.value, "lockAmount") == BigNum(Get(lock, "lockAmount"))
      && Get(r.value, "unlockTime") == Date(Get(lock, "unlockTime"))
  {
    if IsNullish(lock) then Throws
    else Returns(Obj(map["lockAmount" := BigNum(Get(lock, "lockAmount")), "unlockTime" := Date(Get(lock, "unlockTime"))]))
  }

  /** `locks.map(NormaliseLock)`: throws as soon as one entry does. */
  function NormaliseLocks(locks: seq<Js>): (r: Completion<seq<Js>>)
    ensures r.Returns? <==> forall i :: 0 <= i < |locks| ==> !IsNullish(locks[i])
    ensures r.Returns? ==> |r.value| == |locks| && forall i :: 0 <= i < |locks| ==> r.value[i] == NormaliseLock(locks[i]).value
  {
    if locks == [] then Returns([])
    else match (NormaliseLock(locks[0]), NormaliseLocks(locks[1..]))
      case (Returns(head), Returns(tail)) => Returns([head] + tail)
      case _ => Throws
  }

  /** appStateReducer(state), for a state that is an object or unset. */
  function AppStateReducer(state: Js): (r: Completion<map<string, Js>>)
    requires state.Obj? || IsNullish(state)
    ensures !LockSettings.HasLoadedLockSettings(state) ==> r == Returns(Fields(state)["ready" := Bool(false)])
    ensures r.Returns? ==> "ready" in r.value && r.value["ready"] == Bool(LockSettings.HasLoadedLockSettings(state))
    ensures r.Returns? ==> forall k :: k in Fields(state) && k != "ready" && k != "locks" ==> k in r.value && r.value[k] == Fields(state)[k]
    ensures r.Returns? ==> forall k :: k in r.value ==> k in Fields(state) || k == "ready" || k == "locks"
    ensures LockSettings.HasLoadedLockSettings(state) && !Truthy(Get(state, "locks")) ==> r.Returns? && "locks" in r.value && r.value["locks"] == Arr([])
    ensures LockSettings.HasLoadedLockSettings(state) && Truthy(Get(state, "locks")) ==>
      (r.Returns? <==> Get(state, "locks").Arr? && forall i :: 0 <= i < |Get(state, "locks").items| ==> !IsNullish(Get(state, "locks").items[i]))
  {
    var ready := LockSettings.HasLoadedLockSettings(state);
    if !ready then Returns(Fields(state)["ready" := Bool(false)])
    else
      var locks := Get(state, "locks");
      if !Truthy(locks) then Returns(Fields(state)["ready" := Bool(true)]["locks" := Arr([])])
      else if !locks.Arr? then Throws
      else match NormaliseLocks(locks.items)
        case Throws => Throws
        case Returns(normalised) => Returns(Fields(state)["ready" := Bool(true)]["locks" := Arr(normalised)])
  }

  /** When ready, every entry keeps its place and carries exactly its
      amount (as a BN) and its unlock time (as a Date). */
  lemma ReadyLocksKeepOrder(state: Js)
    requires state.Obj? || IsNullish(state)
    requires AppStateReducer(state).Returns? && LockSettings.HasLoadedLockSettings(state)
    requires Get(state, "locks").Arr?
    ensures
      var before := Get(state, "locks").items;
      var after := Get(Obj(AppStateReducer(state).value), "locks");
      && after.Arr? && |after.items| == |before|
      && forall i :: 0 <= i < |before| ==>
           && after.items[i].Obj?
           && after.items[i].fields.Keys == {"lockAmount", "unlockTime"}
           && Get(after.items[i], "lockAmount") == BigNum(Get(before[i], "lockAmount"))
           && Get(after.items[i], "unlockTime") == Date(Get(before[i], "unlockTime"))
  {
  }

  /** While not ready, the lock list is passed through untouched. */
  lemma NotReadyKeepsLocks(state: Js)
    requires state.Obj? || IsNullish(state)
    requires !LockSettings.HasLoadedLockSettings(state)
    ensures AppStateReducer(state).Returns?
    ensures Get(Obj(AppStateReducer(state).value), "locks") == Get(state, "locks")
  {
  }
}

=== FILE: aragon.dfy ===
/** The pieces of the Aragon framework the escrow apps lean on: roles and
    the permission check, forwarded EVM scripts, and the events the apps
    emit for their frontend. */
module Aragon {
  import Erc20

  type Address = Erc20.Address

  /** The roles guarding the apps' entry points. */
  datatype Role =
    | ChangeDurationRole
    | ChangeAmountRole
    | ChangeSpamPenaltyRole
    | LockTokensRole

  /** The ACL, reduced to the set of (account, role) grants it holds. */
  type Acl = set<(Address, Role)>

  /** canPerform as the `auth` modifier uses it: an app that has not been
      initialised grants nothing, whatever the ACL holds. */
  predicate CanPerform(initialized: bool, acl: Acl, who: Address, role: Role)
  {
    initialized && (who, role) in acl
  }

  /** A forwarded EVM call script; only its identity matters here. */
  type EvmScript = seq<nat>

  /** Events the apps emit, with the field names the frontend reads. */
  datatype Event =
    | NewLock(lockAddress: Address, unlockTime: nat, lockAmount: nat)
    | Withdrawal(withdrawalAddress: Address, withdrawalLockCount: nat)
    | ChangeLockDuration(newLockDuration: nat)
    | ChangeLockAmount(newLockAmount: nat)
}

=== FILE: erc20.dfy ===
/** The ERC-20 token collaborator as the escrow sees it: holder balances,
    the allowance each holder has granted the escrow, and the escrow's own
    balance (its custody). */
module Erc20 {
  import opened Results
  import MapSums

  /** Accounts and contracts are identified by their 160-bit address,
      modelled as a number. */
  type Address = nat

  datatype Token = Token(balances: map<Address, nat>, allowances: map<Address, nat>, custody: nat)

  function BalanceOf(t: Token, a: Address): nat
  {
    MapSums.ValueAt(t.balances, a)
  }

  /** allowance(a, escrow) */
  function Allowance(t: Token, a: Address): nat
  {
    MapSums.ValueAt(t.allowances, a)
  }

  /** Every token in existence: all holder balances plus the custody. */
  ghost function Supply(t: Token): nat
  {
    MapSums.Sum(t.balances) + t.custody
  }

  /** approve(escrow, amount) sent by `owner`: replaces the allowance. */
  function Approve(t: Token, owner: Address, amount: nat): (r: Token)
    ensures Allowance(r, owner) == amount
    ensures forall a :: a != owner ==> Allowance(r, a) == Allowance(t, a)
    ensures r.balances == t.balances && r.custody == t.custody
  {
    t.(allowances := t.allowances[owner := amount])
  }

  /** transferFrom(from, escrow, amount) called by the escrow: needs both
      the balance and the allowance, and spends the allowance. */
  function TransferFrom(t: Token, from: Address, amount: nat): (r: Result<Token>)
    ensures r.Ok? <==> amount <= BalanceOf(t, from) && amount <= Allowance(t, from)
    ensures r.Revert? ==> r.reason == TransferReverted
    ensures r.Ok? ==>
      && BalanceOf(r.value, from) + amount == BalanceOf(t, from)
      && Allowance(r.value, from) + amount == Allowance(t, from)
      && r.value.custody == t.custody + amount
      && (forall a :: a != from ==> BalanceOf(r.value, a) == BalanceOf(t, a))
      && (forall a :: a != from ==> Allowance(r.value, a) == Allowance(t, a))
  {
    var balance := BalanceOf(t, from);
    var allowance := Allowance(t, from);
    if amount > balance || amount > allowance then Revert(TransferReverted)
    else Ok(Token(t.balances[from := balance - amount], t.allowances[from := allowance - amount], t.custody + amount))
  }

  /** transfer(to, amount) called by the escrow: pays out of its custody. */
  function Transfer(t: Token, to: Address, amount: nat): (r: Result<Token>)
    ensures r.Ok? <==> amount <= t.custody
    ensures r.Revert? ==> r.reason == TransferReverted
    ensures r.Ok? ==>
      && BalanceOf(r.value, to) == BalanceOf(t, to) + amount
      && r.value.custody + amount == t.custody
      && r.value.allowances == t.allowances
      && (forall a :: a != to ==> BalanceOf(r.value, a) == BalanceOf(t, a))
  {
    if amount > t.custody then Revert(TransferReverted)
    else Ok(Token(t.balances[to := BalanceOf(t, to) + amount], t.allowances, t.custody - amount))
  }

  /** transfer(escrow, amount) sent to the token by `from`: a plain
      transfer to the escrow's address, which anyone may make and which no
      lock accounts for. */
  function TransferIn(t: Token, from: Address, amount: nat): (r: Result<Token>)
    ensures r.Ok? <==> amount <= BalanceOf(t, from)
    ensures r.Revert? ==> r.reason == TransferReverted
    ensures r.Ok? ==>
      && BalanceOf(r.value, from) + amount == BalanceOf(t, from)
      && r.value.custody == t.custody + amount
      && r.value.allowances == t.allowances
      && (forall a :: a != from ==> BalanceOf(r.value, a) == BalanceOf(t, a))
  {
    var balance := BalanceOf(t, from);
    if amount > balance then Revert(TransferReverted)
    else Ok(t.(balances := t.balances[from := balance - amount], custody := t.custody + amount))
  }

  /** Pulling tokens into custody neither creates nor destroys any. */
  lemma TransferFromConserves(t: Token, from: Address, amount: nat)
    ensures TransferFrom(t, from, amount).Ok? ==> Supply(TransferFrom(t, from, amount).value) == Supply(t)
  {
    var r := TransferFrom(t, from, amount);
    if r.Ok? {
      MapSums.SumUpdate(t.balances, from, BalanceOf(t, from) - amount);
    }
  }

  /** Paying tokens out of custody neither creates nor destroys any. */
  lemma TransferConserves(t: Token, to: Address, amount: nat)
    ensures Transfer(t, to, amount).Ok? ==> Supply(Transfer(t, to, amount).value) == Supply(t)
  {
    var r := Transfer(t, to, amount);
    if r.Ok? {
      MapSums.SumUpdate(t.balances, to, BalanceOf(t, to) + amount);
    }
  }

  /** A plain transfer to the escrow neither creates nor destroys tokens. */
  lemma TransferInConserves(t: Token, from: Address, amount: nat)
    ensures TransferIn(t, from, amount).Ok? ==> Supply(TransferIn(t, from, amount).value) == Supply(t)
  {
    var r := TransferIn(t, from, amount);
    if r.Ok? {
      MapSums.SumUpdate(t.balances, from, BalanceOf(t, from) - amount);
    }
  }
}

=== FILE: escrow.dfy ===
/** The lock ledger and escrow custody shared by both app variants: the
    per-account FIFO queue of locks, the deposit that appends to it and
    the withdrawal that releases matured locks from its head. */
module Escrow {
  import opened Results
  import opened Locks
  import opened Erc20
  import MapSums

  /** Every account's queue of active locks (oldest first) and the token
      holding the escrowed funds. An account without an entry has no locks. */
  datatype Escrow = Escrow(ledger: map<Address, seq<Lock>>, erc20: Token)

  /** addressesWithdrawLocks(a, i) for every i below getWithdrawLocksCount(a). */
  function LocksOf(e: Escrow, a: Address): seq<Lock>
  {
    if a in e.ledger then e.ledger[a] else []
  }

  ghost function LockedTotals(ledger: map<Address, seq<Lock>>): map<nat, nat>
  {
    map a | a in ledger :: Total(ledger[a])
  }

  /** The tokens of all active locks of all accounts. */
  ghost function Locked(e: Escrow): nat
  {
    MapSums.Sum(LockedTotals(e.ledger))
  }

  /** Custody covers every active lock of every account. Custody can hold
      more: anyone may transfer tokens to the escrow's address. */
  ghost predicate Solvent(e: Escrow)
  {
    Locked(e) <= e.erc20.custody
  }

  /** What custody holds beyond the active locks. */
  ghost function Surplus(e: Escrow): int
  {
    e.erc20.custody - Locked(e)
  }

  /** Replacing one account's queue moves the locked sum by the difference. */
  lemma LockedTotalsUpdate(ledger: map<Address, seq<Lock>>, a: Address, locks: seq<Lock>, prev: seq<Lock>)
    requires prev == (if a in ledger then ledger[a] else [])
    ensures MapSums.Sum(LockedTotals(ledger[a := locks])) + Total(prev) == MapSums.Sum(LockedTotals(ledger)) + Total(locks)
    ensures Total(prev) <= MapSums.Sum(LockedTotals(ledger))
  {
    var m := LockedTotals(ledger);
    assert LockedTotals(ledger[a := locks]) == m[a := Total(locks)];
    assert MapSums.ValueAt(m, a) == Total(prev);
    MapSums.SumUpdate(m, a, Total(locks));
  }

  /** Fee capture and ledger append, as one unit: `lock.lockAmount` tokens
      move from `a` into custody and `lock` joins the tail of `a`'s queue;
      if the token refuses the transfer nothing happens. */
  function Deposit(e: Escrow, a: Address, lock: Lock): (r: Result<Escrow>)
    ensures r.Ok? <==> lock.lockAmount <= BalanceOf(e.erc20, a) && lock.lockAmount <= Allowance(e.erc20, a)
    ensures r.Revert? ==> r.reason == TransferReverted
    ensures r.Ok? ==>
      && LocksOf(r.value, a) == LocksOf(e, a) + [lock]
      && (forall b :: b != a ==> LocksOf(r.value, b) == LocksOf(e, b))
      && BalanceOf(r.value.erc20, a) + lock.lockAmount == BalanceOf(e.erc20, a)
      && Allowance(r.value.erc20, a) + lock.lockAmount == Allowance(e.erc20, a)
      && r.value.erc20.custody == e.erc20.custody + lock.lockAmount
      && (forall b :: b != a ==> BalanceOf(r.value.erc20, b) == BalanceOf(e.erc20, b))
      && (forall b :: b != a ==> Allowance(r.value.erc20, b) == Allowance(e.erc20, b))
  {
    match TransferFrom(e.erc20, a, lock.lockAmount)
    case Revert(reason) => Revert(reason)
    case Ok(t) => Ok(Escrow(e.ledger[a := LocksOf(e, a) + [lock]], t))
  }

  /** On-chain maturity: a lock can be withdrawn once the block time is
      past its unlock time. */
  predicate Matured(lock: Lock, now: nat)
  {
    lock.unlockTime < now
  }

  /** The contract's maturity is never ahead of the frontend's display. */
  lemma MaturedIsShownUnlocked(lock: Lock, now: nat)
    ensures Matured(lock, now) ==> IsUnlocked(lock.unlockTime, now)
    ensures IsUnlocked(lock.unlockTime, now) && lock.unlockTime != now ==> Matured(lock, now)
  {
  }

  /** How many of the first `k` locks form a matured run from the head. */
  function MaturedPrefix(locks: seq<Lock>, k: nat, now: nat): (n: nat)
    requires k <= |locks|
    ensures n <= k
    ensures forall i :: 0 <= i < n ==> Matured(locks[i], now)
    ensures n < k ==> !Matured(locks[n], now)
  {
    if k == 0 || !Matured(locks[0], now) then 0
    else 1 + MaturedPrefix(locks[1..], k - 1, now)
  }

  /** The run is determined by the two facts the contract of
      MaturedPrefix states: any count with them is that count. */
  lemma MaturedPrefixUnique(locks: seq<Lock>, k: nat, now: nat, n: nat)
    requires k <= |locks| && n <= k
    requires forall i :: 0 <= i < n ==> Matured(locks[i], now)
    requires n < k ==> !Matured(locks[n], now)
    ensures n == MaturedPrefix(locks, k, now)
  {
  }

  /** The contract's withdrawal loop, as a stand-alone method: walk the
      first `k` locks from the head, adding up amounts while they are
      matured, and stop at the first that is not. Withdraw itself uses
      MaturedPrefix and Total; this method shows that the loop computes
      the same count and the same sum. */
  method ScanMatured(locks: seq<Lock>, k: nat, now: nat) returns (count: nat, owed: nat)
    requires k <= |locks|
    ensures count == MaturedPrefix(locks, k, now)
    ensures owed == Total(locks[..count])
  {
    count := 0;
    owed := 0;
    while count < k && Matured(locks[count], now)
      invariant count <= k
      invariant forall i :: 0 <= i < count ==> Matured(locks[i], now)
      invariant owed == Total(locks[..count])
    {
      assert locks[..count + 1][..count] == locks[..count];
      owed := owed + locks[count].lockAmount;
      count := count + 1;
    }
    MaturedPrefixUnique(locks, k, now, count);
  }

  /** What a committed withdrawal did: the escrow after it, how many locks
      left the head of the queue and how many tokens went back. */
  datatype Withdrawal = Withdrawal(escrow: Escrow, count: nat, amount: nat)

  /** withdrawTokens(k) for `a`: more than `a` holds is refused outright;
      otherwise the matured run among the first `k` locks leaves the head of
      the queue and its summed amount is paid back. When nothing has matured
      the call succeeds and changes nothing. */
  function Withdraw(e: Escrow, a: Address, k: nat, now: nat): (r: Result<Withdrawal>)
    ensures k > |LocksOf(e, a)| <==> r == Revert(TooManyWithdrawLocks)
    ensures r.Ok? ==>
      var w := r.value;
      var locks := LocksOf(e, a);
      && w.count <= k
      && (forall i :: 0 <= i < w.count ==> Matured(locks[i], now))
      && (w.count < k ==> !Matured(locks[w.count], now))
      && w.amount == Total(locks[..w.count])
      && LocksOf(w.escrow, a) == locks[w.count..]
      && (forall b :: b != a ==> LocksOf(w.escrow, b) == LocksOf(e, b))
      && BalanceOf(w.escrow.erc20, a) == BalanceOf(e.erc20, a) + w.amount
      && w.escrow.erc20.custody + w.amount == e.erc20.custody
      && (forall b :: b != a ==> BalanceOf(w.escrow.erc20, b) == BalanceOf(e.erc20, b))
      && w.escrow.erc20.allowances == e.erc20.allowances
    ensures r.Ok? && r.value.count == 0 ==> r.value.escrow == e
    ensures Solvent(e) && k <= |LocksOf(e, a)| ==> r.Ok?
  {
    var locks := LocksOf(e, a);
    if k > |locks| then Revert(TooManyWithdrawLocks)
    else
      var n := MaturedPrefix(locks, k, now);
      if n == 0 then Ok(Withdrawal(e, 0, 0))
      else
        var amount := Total(locks[..n]);
        assert Solvent(e) ==> amount <= e.erc20.custody by {
          TotalPrefix(locks, n);
          LockedTotalsUpdate(e.ledger, a, [], locks);
        }
        match Transfer(e.erc20, a, amount)
        case Revert(reason) => Revert(reason)
        case Ok(t) => Ok(Withdrawal(Escrow(e.ledger[a := locks[n..]], t), n, amount))
  }

  /** A deposit adds to custody exactly what it adds to the active locks,
      so the surplus stays as it was and a solvent escrow stays solvent. */
  lemma DepositKeepsSolvent(e: Escrow, a: Address, lock: Lock)
    ensures Deposit(e, a, lock).Ok? ==> Surplus(Deposit(e, a, lock).value) == Surplus(e)
    ensures Deposit(e, a, lock).Ok? && Solvent(e) ==> Solvent(Deposit(e, a, lock).value)
  {
    var r := Deposit(e, a, lock);
    if r.Ok? {
      var locks := LocksOf(e, a);
      LockedTotalsUpdate(e.ledger, a, locks + [lock], locks);
      TotalAppend(locks, [lock]);
      TotalCons(lock, []);
      assert [lock] + [] == [lock];
    }
  }

  /** A withdrawal takes out of custody exactly what it takes out of the
      active locks, so the surplus stays as it was and a solvent escrow
      stays solvent. */
  lemma WithdrawKeepsSolvent(e: Escrow, a: Address, k: nat, now: nat)
    ensures Withdraw(e, a, k, now).Ok? ==> Surplus(Withdraw(e, a, k, now).value.escrow) == Surplus(e)
    ensures Withdraw(e, a, k, now).Ok? && Solvent(e) ==> Solvent(Withdraw(e, a, k, now).value.escrow)
  {
    var r := Withdraw(e, a, k, now);
    if r.Ok? && r.value.count > 0 {
      var locks := LocksOf(e, a);
      var n := r.value.count;
      TotalPrefix(locks, n);
      LockedTotalsUpdate(e.ledger, a, locks[n..], locks);
    }
  }

  /** A plain token transfer to the escrow's address: custody grows, no
      queue changes. */
  function Receive(e: Escrow, from: Address, amount: nat): (r: Result<Escrow>)
    ensures r.Ok? <==> amount <= BalanceOf(e.erc20, from)
    ensures r.Ok? ==>
      && r.value.ledger == e.ledger
      && r.value.erc20.custody == e.erc20.custody + amount
      && BalanceOf(r.value.erc20, from) + amount == BalanceOf(e.erc20, from)
      && (forall b :: b != from ==> BalanceOf(r.value.erc20, b) == BalanceOf(e.erc20, b))
      && r.value.erc20.allowances == e.erc20.allowances
  {
    match TransferIn(e.erc20, from, amount)
    case Revert(reason) => Revert(reason)
    case Ok(t) => Ok(e.(erc20 := t))
  }

  /** Tokens sent to the escrow outside a lock only grow the surplus: the
      escrow stays solvent and the tokens stay in the supply. */
  lemma ReceiveKeepsSolvent(e: Escrow, from: Address, amount: nat)
    ensures Receive(e, from, amount).Ok? ==> Surplus(Receive(e, from, amount).value) == Surplus(e) + amount
    ensures Receive(e, from, amount).Ok? && Solvent(e) ==> Solvent(Receive(e, from, amount).value)
    ensures Receive(e, from, amount).Ok? ==> Supply(Receive(e, from, amount).value.erc20) == Supply(e.erc20)
  {
    TransferInConserves(e.erc20, from, amount);
  }

  /** Deposits and withdrawals only move tokens between holders and custody. */
  lemma DepositConserves(e: Escrow, a: Address, lock: Lock)
    ensures Deposit(e, a, lock).Ok? ==> Supply(Deposit(e, a, lock).value.erc20) == Supply(e.erc20)
  {
    TransferFromConserves(e.erc20, a, lock.lockAmount);
  }

  lemma WithdrawConserves(e: Escrow, a: Address, k: nat, now: nat)
    ensures Withdraw(e, a, k, now).Ok? ==> Supply(Withdraw(e, a, k, now).value.escrow.erc20) == Supply(e.erc20)
  {
    if k <= |LocksOf(e, a)| {
      var locks := LocksOf(e, a);
      var n := MaturedPrefix(locks, k, now);
      TransferConserves(e.erc20, a, Total(locks[..n]));
    }
  }
}

=== FILE: flat_lock.dfy ===
/** The flat-fee escrow (Lock): every forward costs the same configured
    amount and holds it for the same configured duration; there is no
    penalty term. Its forwarding gate asks for an allowance that covers
    the fee rather than for a role.

    The flat app keeps the same storage as TimeLock minus the penalty
    factor, so its state is TimeLock's with a factor of zero that it never
    reads, and the setters, the withdrawal and the test hooks are
    TimeLock's own. */
module FlatLock {
  import opened Results
  import opened Locks
  import opened Erc20
  import opened Escrow
  import Aragon
  import TimeLock

  type State = TimeLock.State
  type Outcome = TimeLock.Outcome

  /** forwardFee(): the token and the configured amount. */
  function ForwardFee(s: State): (f: TimeLock.Fee)
    ensures forall a :: f == TimeLock.ForwardFee(s.(config := s.config.(spamPenaltyFactor := 0)), a)
  {
    TimeLock.Fee(s.config.token, s.config.lockAmount)
  }

  /** The lock every forward creates: the configured amount, held for the
      configured duration from now. */
  function NextLock(s: State): (l: Lock)
    ensures l.lockAmount == ForwardFee(s).amount
  {
    Lock(s.now + s.config.lockDuration, s.config.lockAmount)
  }

  /** canForward(sender, script): the app is initialised and `sender` has
      allowed it to pull at least one fee. */
  predicate CanForward(s: State, sender: Address)
    ensures CanForward(s, sender) ==> s.initialized
  {
    s.initialized && Allowance(s.escrow.erc20, sender) >= s.config.lockAmount
  }

  /** initialize(token, lockDuration, lockAmount) */
  function Initialize(s: State, token: Address, lockDuration: nat, lockAmount: nat): (r: Result<Outcome>)
    ensures s.initialized <==> r == Revert(AlreadyInitialized)
    ensures r.Ok? ==>
      && r.value.state.initialized
      && r.value.state.config.token == token
      && r.value.state.config.lockDuration == lockDuration
      && r.value.state.config.lockAmount == lockAmount
      && r.value.state.escrow == s.escrow
  {
    TimeLock.Initialize(s, token, lockDuration, lockAmount, 0)
  }

  /** forward(script) from `sender`: the allowance gate, then the flat
      lock is lodged. */
  function Forward(s: State, sender: Address, script: Aragon.EvmScript, scriptRuns: bool): (r: Result<Outcome>)
    ensures r.Ok? <==> CanForward(s, sender) && s.config.lockAmount <= BalanceOf(s.escrow.erc20, sender) && scriptRuns
    ensures !CanForward(s, sender) ==> r == Revert(CanNotForward)
    ensures r.Ok? ==>
      var s' := r.value.state;
      var lock := Lock(s.now + s.config.lockDuration, s.config.lockAmount);
      && LocksOf(s'.escrow, sender) == LocksOf(s.escrow, sender) + [lock]
      && (forall b :: b != sender ==> LocksOf(s'.escrow, b) == LocksOf(s.escrow, b))
      && BalanceOf(s'.escrow.erc20, sender) + s.config.lockAmount == BalanceOf(s.escrow.erc20, sender)
      && Allowance(s'.escrow.erc20, sender) + s.config.lockAmount == Allowance(s.escrow.erc20, sender)
      && s'.escrow.erc20.custody == s.escrow.erc20.custody + s.config.lockAmount
      && (forall b :: b != sender ==> BalanceOf(s'.escrow.erc20, b) == BalanceOf(s.escrow.erc20, b))
      && s'.executed == s.executed + [script]
      && s'.config == s.config && s'.now == s.now && s'.acl == s.acl && s'.initialized
      && r.value.events == [Aragon.NewLock(sender, lock.unlockTime, lock.lockAmount)]
  {
    if !CanForward(s, sender) then Revert(CanNotForward)
    else TimeLock.Lodge(s, sender, NextLock(s), script, scriptRuns)
  }

  /** One transaction sent by some account. */
  datatype Call =
    | CallInitialize(token: Address, lockDuration: nat, lockAmount: nat)
    | CallChangeLockDuration(lockDuration: nat)
    | CallChangeLockAmount(lockAmount: nat)
    | CallForward(script: Aragon.EvmScript, scriptRuns: bool)
    | CallWithdrawTokens(count: nat)
    | CallApprove(amount: nat)
    | CallIncreaseTime(dt: nat)
    | CallTransferToApp(amount: nat)

  /** Sending `call` from `sender`: what it commits, or why it reverts. */
  function Send(s: State, sender: Address, call: Call): Result<Outcome>
  {
    match call
    case CallInitialize(t, d, a) => Initialize(s, t, d, a)
    case CallChangeLockDuration(v) => TimeLock.ChangeLockDuration(s, sender, v)
    case CallChangeLockAmount(v) => TimeLock.ChangeLockAmount(s, sender, v)
    case CallForward(script, runs) => Forward(s, sender, script, runs)
    case CallWithdrawTokens(k) => TimeLock.WithdrawTokens(s, sender, k)
    case CallApprove(amount) => Ok(TimeLock.Outcome(TimeLock.ApproveApp(s, sender, amount), []))
    case CallIncreaseTime(dt) => Ok(TimeLock.Outcome(TimeLock.IncreaseTime(s, dt), []))
    case CallTransferToApp(amount) => TimeLock.TransferToApp(s, sender, amount)
  }

  /** The state after `sender` sends `call`; a revert leaves `s` as it was. */
  function Step(s: State, sender: Address, call: Call): State
  {
    var r := Send(s, sender, call);
    if r.Ok? then r.value.state else s
  }
}

=== FILE: flat_lock_properties.dfy ===
/** What the Lock test suite pins down, proved of the FlatLock model. */
module FlatLockProperties {
  import opened Results
  import opened Locks
  import opened Erc20
  import opened Escrow
  import Aragon
  import opened FlatLock
  import TimeLock

  /** The fee has no penalty term: forwarding does not raise it. */
  lemma FeeDoesNotEscalate(s: State, a: Address, script: Aragon.EvmScript, runs: bool)
    requires Forward(s, a, script, runs).Ok?
    ensures ForwardFee(Forward(s, a, script, runs).value.state) == ForwardFee(s)
    ensures |LocksOf(Forward(s, a, script, runs).value.state.escrow, a)| == |LocksOf(s.escrow, a)| + 1
  {
  }

  /** Without an allowance covering the fee the gate itself refuses. */
  lemma ForwardWithoutApproval(s: State, a: Address, script: Aragon.EvmScript, runs: bool)
    requires Allowance(s.escrow.erc20, a) < s.config.lockAmount
    ensures Forward(s, a, script, runs) == Revert(CanNotForward)
  {
  }

  /** While the head has not matured a withdrawal of up to all locks
      changes nothing: the withdrawal stops at the first unmatured lock. */
  lemma WithdrawBeforeMaturity(s: State, a: Address, k: nat)
    requires k <= |LocksOf(s.escrow, a)|
    requires 0 < k ==> !Matured(LocksOf(s.escrow, a)[0], s.now)
    ensures TimeLock.WithdrawTokens(s, a, k).Ok?
    ensures TimeLock.WithdrawTokens(s, a, k).value.state == s
  {
  }

  lemma WithdrawTooMany(s: State, a: Address)
    ensures TimeLock.WithdrawTokens(s, a, |LocksOf(s.escrow, a)| + 1) == Revert(TooManyWithdrawLocks)
  {
  }

  /** One forward whose fee is covered appends the configured lock and
      spends one fee of balance and of allowance. */
  lemma ForwardOnce(s: State, a: Address, script: Aragon.EvmScript)
    requires CanForward(s, a)
    requires BalanceOf(s.escrow.erc20, a) >= s.config.lockAmount
    ensures Forward(s, a, script, true).Ok?
    ensures
      var s' := Forward(s, a, script, true).value.state;
      && LocksOf(s'.escrow, a) == LocksOf(s.escrow, a) + [Lock(s.now + s.config.lockDuration, s.config.lockAmount)]
      && Allowance(s'.escrow.erc20, a) + s.config.lockAmount == Allowance(s.escrow.erc20, a)
      && BalanceOf(s'.escrow.erc20, a) + s.config.lockAmount == BalanceOf(s.escrow.erc20, a)
      && s'.config == s.config && s'.now == s.now && s'.initialized
  {
  }

  /** Three forwards under one configuration, as in the withdrawal tests,
      leave three equal locks behind. */
  lemma ThreeForwardsAreEqual(s: State, a: Address, script: Aragon.EvmScript)
    requires CanForward(s, a) && LocksOf(s.escrow, a) == []
    requires Allowance(s.escrow.erc20, a) >= 3 * s.config.lockAmount
    requires BalanceOf(s.escrow.erc20, a) >= 3 * s.config.lockAmount
    ensures Forward(s, a, script, true).Ok?
    ensures
      var s1 := Forward(s, a, script, true).value.state;
      && Forward(s1, a, script, true).Ok?
      && var s2 := Forward(s1, a, script, true).value.state;
      && Forward(s2, a, script, true).Ok?
      && var s3 := Forward(s2, a, script, true).value.state;
      && var lock := Lock(s.now + s.config.lockDuration, s.config.lockAmount);
      && LocksOf(s3.escrow, a) == [lock, lock, lock]
  {
    var lock := Lock(s.now + s.config.lockDuration, s.config.lockAmount);
    ForwardOnce(s, a, script);
    var s1 := Forward(s, a, script, true).value.state;
    ForwardOnce(s1, a, script);
    var s2 := Forward(s1, a, script, true).value.state;
    ForwardOnce(s2, a, script);
    var s3 := Forward(s2, a, script, true).value.state;
    assert LocksOf(s3.escrow, a) == [lock, lock, lock];
  }

  /** Equal locks mature together: once past their unlock time, one
      withdrawal returns one fee and leaves two locks, and a withdrawal of
      all three empties the queue. */
  lemma EqualLocksMatureTogether(s: State, a: Address, lock: Lock)
    requires LocksOf(s.escrow, a) == [lock, lock, lock] && Solvent(s.escrow)
    requires lock.unlockTime < s.now
    ensures TimeLock.WithdrawTokens(s, a, 1).Ok?
    ensures LocksOf(TimeLock.WithdrawTokens(s, a, 1).value.state.escrow, a) == [lock, lock]
    ensures BalanceOf(TimeLock.WithdrawTokens(s, a, 1).value.state.escrow.erc20, a) == BalanceOf(s.escrow.erc20, a) + lock.lockAmount
    ensures TimeLock.WithdrawTokens(s, a, 3).Ok?
    ensures LocksOf(TimeLock.WithdrawTokens(s, a, 3).value.state.escrow, a) == []
  {
    assert [lock, lock, lock][..1] == [lock];
    assert [lock, lock, lock][1..] == [lock, lock];
    assert Total([lock]) == lock.lockAmount by {
      TotalCons(lock, []);
      assert [lock] + [] == [lock];
    }
  }

  /** Changing the duration or the amount leaves the existing locks alone. */
  lemma ConfigChangeKeepsLocks(s: State, admin: Address, v: nat, a: Address)
    ensures TimeLock.ChangeLockDuration(s, admin, v).Ok? ==>
      LocksOf(TimeLock.ChangeLockDuration(s, admin, v).value.state.escrow, a) == LocksOf(s.escrow, a)
    ensures TimeLock.ChangeLockAmount(s, admin, v).Ok? ==>
      LocksOf(TimeLock.ChangeLockAmount(s, admin, v).value.state.escrow, a) == LocksOf(s.escrow, a)
  {
  }

  /** A forward keeps custody covering the active locks, leaves the
      surplus beyond them as it was and conserves the token supply. */
  lemma ForwardKeepsInvariant(s: State, sender: Address, script: Aragon.EvmScript, runs: bool)
    requires Solvent(s.escrow)
    ensures Forward(s, sender, script, runs).Ok? ==>
      && Solvent(Forward(s, sender, script, runs).value.state.escrow)
      && Surplus(Forward(s, sender, script, runs).value.state.escrow) == Surplus(s.escrow)
      && Supply(Forward(s, sender, script, runs).value.state.escrow.erc20) == Supply(s.escrow.erc20)
  {
    if CanForward(s, sender) {
      DepositKeepsSolvent(s.escrow, sender, NextLock(s));
      DepositConserves(s.escrow, sender, NextLock(s));
    }
  }

  /** Every transaction keeps custody covering the active locks, never
      shrinks the surplus beyond them, and conserves the token supply. */
  lemma StepKeepsInvariant(s: State, sender: Address, call: Call)
    requires Solvent(s.escrow)
    ensures Solvent(Step(s, sender, call).escrow)
    ensures Surplus(Step(s, sender, call).escrow) >= Surplus(s.escrow)
    ensures !call.CallTransferToApp? ==> Surplus(Step(s, sender, call).escrow) == Surplus(s.escrow)
    ensures Supply(Step(s, sender, call).escrow.erc20) == Supply(s.escrow.erc20)
  {
    match call {
      case CallForward(script, runs) =>
        ForwardKeepsInvariant(s, sender, script, runs);
      case CallWithdrawTokens(k) =>
        WithdrawKeepsSolvent(s.escrow, sender, k, s.now);
        WithdrawConserves(s.escrow, sender, k, s.now);
      case CallTransferToApp(amount) =>
        ReceiveKeepsSolvent(s.escrow, sender, amount);
      case _ =>
    }
  }
}

=== FILE: js_values.dfy ===
/** Just enough of JavaScript's values for the frontend's state helpers:
    truthiness, property reads and the BN / Date wrappers. */
module JsValues {

  /** A JavaScript value. Numbers are integers here (no NaN, no -0);
      `BigNum(v)` is `new BN(v)` and `Date(v)` is `new Date(v)`, kept as
      opaque wrappers around what they were built from. */
  datatype Js =
    | Undefined
    | Null
    | Bool(b: bool)
    | Num(n: int)
    | Str(s: string)
    | Arr(items: seq<Js>)
    | Obj(fields: map<string, Js>)
    | BigNum(of: Js)
    | Date(of: Js)

  /** `!!v`: false, 0, "", null and undefined are falsy; every object,
      array, BN and Date is truthy. */
  predicate Truthy(v: Js)
  {
    match v
    case Undefined => false
    case Null => false
    case Bool(b) => b
    case Num(n) => n != 0
    case Str(s) => s != ""
    case _ => true
  }

  /** Whether reading a property of `v` throws a TypeError. */
  predicate IsNullish(v: Js)
  {
    v.Undefined? || v.Null?
  }

  /** `v[key]` on a value that is not null or undefined, for a key that is
      no array index and none of the built-in properties (`length`, ...):
      an object's own field, or undefined. */
  function Get(v: Js, key: string): (r: Js)
    ensures !v.Obj? ==> r == Undefined
    ensures v.Obj? && key !in v.fields ==> r == Undefined
  {
    if v.Obj? && key in v.fields then v.fields[key] else Undefined
  }
}

=== FILE: lock_settings.dfy ===
/** app/src/lib/lock-settings.js: the table of settings the frontend
    loads, and the test that all of them have been loaded. */
module LockSettings {
  import opened Results
  import opened JsValues

  /** One row: contract getter, state key, and an optional data type. */
  datatype Setting = Setting(getter: string, key: string, dataType: Option<string>)

  const LOCK_SETTINGS: seq<Setting> := [
    Setting("token", "tokenAddress", None),
    Setting("lockDuration", "lockDuration", Some("time")),
    Setting("lockAmount", "lockAmount", Some("bignumber")),
    Setting("griefingFactor", "griefingFactor", Some("number"))
  ]

  /** `table.reduce((loaded, [_, key]) => loaded && !!state[key], acc)`. */
  function AllLoaded(state: Js, table: seq<Setting>, acc: bool): bool
    decreases |table|
  {
    if table == [] then acc
    else AllLoaded(state, table[1..], acc && Truthy(Get(state, table[0].key)))
  }

  /** hasLoadedLockSettings(state), with `state || {}` for falsy states. */
  function HasLoadedLockSettings(state: Js): bool
  {
    AllLoaded(if Truthy(state) then state else Obj(map[]), LOCK_SETTINGS, true)
  }

  /** The fold is a conjunction over the table's state keys. */
  lemma {:induction false} AllLoadedIff(state: Js, table: seq<Setting>, acc: bool)
    ensures AllLoaded(state, table, acc) <==> acc && forall i :: 0 <= i < |table| ==> Truthy(Get(state, table[i].key))
    decreases |table|
  {
    if table != [] {
      AllLoadedIff(state, table[1..], acc && Truthy(Get(state, table[0].key)));
      assert forall i :: 1 <= i < |table| ==> table[i] == table[1..][i - 1];
    }
  }

  /** Loaded exactly when all four state keys hold truthy values; a
      missing key, a zero duration or an empty address means "not loaded". */
  lemma HasLoadedIff(state: Js)
    ensures HasLoadedLockSettings(state) <==>
      && Truthy(Get(state, "tokenAddress"))
      && Truthy(Get(state, "lockDuration"))
      && Truthy(Get(state, "lockAmount"))
      && Truthy(Get(state, "griefingFactor"))
  {
    var s := if Truthy(state) then state else Obj(map[]);
    AllLoadedIff(s, LOCK_SETTINGS, true);
    assert LOCK_SETTINGS[0].key == "tokenAddress";
    assert LOCK_SETTINGS[1].key == "lockDuration";
    assert LOCK_SETTINGS[2].key == "lockAmount";
    assert LOCK_SETTINGS[3].key == "griefingFactor";
  }

  /** A null or undefined state has loaded nothing. */
  lemma NullishNotLoaded(state: Js)
    requires IsNullish(state)
    ensures !HasLoadedLockSettings(state)
  {
    HasLoadedIff(state);
  }

  /** Only the state keys of the table matter: other keys, and the getter
      and data-type columns, do not affect the result. */
  lemma OnlyTableKeysMatter(state: Js, other: Js, table: seq<Setting>, table': seq<Setting>, acc: bool)
    requires |table| == |table'|
    requires forall i :: 0 <= i < |table| ==> table[i].key == table'[i].key
    requires forall i :: 0 <= i < |table| ==> Get(state, table[i].key) == Get(other, table[i].key)
    ensures AllLoaded(state, table, acc) == AllLoaded(other, table', acc)
  {
    AllLoadedIff(state, table, acc);
    AllLoadedIff(other, table', acc);
  }
}

=== FILE: lock_table.dfy ===
/** The balance table of app/src/components/LockTable.js: the locks of the
    app state split into the unlocked ones, shown only by their total, and
    the rest, listed row by row with their own total. */
module LockTable {
  import opened Locks
  import opened JsValues
  import AppState

  /** What the table shows: the unlocked locks and their total, and the
      locks still listed and theirs. */
  datatype Table = Table(unlocked: seq<Lock>, totalUnlocked: nat, locked: seq<Lock>, totalLocked: nat)

  /** The table for `locks` when `flag` says which lock counts as unlocked:
      `unlocked` keeps the flagged locks and `locked` every lock that is not
      among them (`!unlocked.includes(l)`). Locks are compared by value. */
  function Render(locks: seq<Lock>, flag: Lock -> bool): (t: Table)
    ensures forall l :: l in t.unlocked <==> l in locks && flag(l)
    ensures forall l :: l in t.locked <==> l in locks && !flag(l)
    ensures multiset(t.unlocked) + multiset(t.locked) == multiset(locks)
    ensures t.totalUnlocked == Total(t.unlocked) && t.totalLocked == Total(t.locked)
    ensures t.totalUnlocked + t.totalLocked == Total(locks)
  {
    var unlocked := Filter(locks, flag);
    var notFlagged := (l: Lock) => !flag(l);
    FilterAgree(locks, (l: Lock) => l !in unlocked, notFlagged);
    FilterSplit(locks, flag, notFlagged);
    TotalFilterPartition(locks, flag, notFlagged);
    var locked := Filter(locks, (l: Lock) => l !in unlocked);
    Table(unlocked, Total(unlocked), locked, Total(locked))
  }

  /** Every lock the app state holds is an object with exactly the fields
      `lockAmount` and `unlockTime`, so its `unlocked` property reads as
      undefined, which is falsy. */
  lemma NormalisedLockIsNeverFlagged(lock: Js)
    requires !IsNullish(lock)
    ensures AppState.NormaliseLock(lock).Returns?
    ensures !Truthy(Get(AppState.NormaliseLock(lock).value, "unlocked"))
  {
  }

  /** The table as LockTable.js:20-24 builds it: the filter reads `l.unlocked`,
      which no lock of the app state carries, so nothing is ever shown as
      unlocked and every lock stays listed. */
  function AsWritten(locks: seq<Lock>): (t: Table)
    ensures t.unlocked == [] && t.totalUnlocked == 0
    ensures t.locked == locks && t.totalLocked == Total(locks)
  {
    var t := Render(locks, (l: Lock) => false);
    FilterAgree(locks, (l: Lock) => l !in t.unlocked, (l: Lock) => true);
    FilterAll(locks);
    t
  }

  /** Keeping every lock returns the list itself. */
  lemma {:induction false} FilterAll(locks: seq<Lock>)
    ensures Filter(locks, (l: Lock) => true) == locks
    decreases |locks|
  {
    if locks != [] {
      FilterAll(locks[1..]);
      assert locks == [locks[0]] + locks[1..];
    }
  }

  /** A lock that unlocked a second ago is left out of the unlocked
      balance as written, and counted in it once the flag is isUnlocked. */
  lemma MaturedLockNotShownUnlocked()
    ensures IsUnlocked(0, 1)
    ensures AsWritten([Lock(0, 5)]).totalUnlocked == 0
    ensures Corrected([Lock(0, 5)], 1).totalUnlocked == 5
  {
    var locks := [Lock(0, 5)];
    assert Unlocked(locks, 1) == [Lock(0, 5)] by {
      assert Unlocked(locks, 1) == [Lock(0, 5)] + Unlocked([], 1);
    }
    assert Total([Lock(0, 5)]) == Total([]) + 5;
  }

  /** The table with the flag the heading promises: a lock counts as
      unlocked when isUnlocked holds for it now. The two parts are exactly
      the unlocked and the still-locked locks, in their original order. */
  function Corrected(locks: seq<Lock>, now: nat): (t: Table)
    ensures t.unlocked == Unlocked(locks, now)
    ensures t.locked == StillLocked(locks, now)
    ensures t.totalUnlocked + t.totalLocked == Total(locks)
  {
    var t := Render(locks, (l: Lock) => IsUnlocked(l.unlockTime, now));
    FilterAgree(locks, (l: Lock) => l !in t.unlocked, (l: Lock) => !IsUnlocked(l.unlockTime, now));
    t
  }
}

=== FILE: locks.dfy ===
/** Lock records and the pure helpers of app/src/lib/lock-utils.js:
    the frontend maturity test and the summation of lock amounts. */
module Locks {

  /** One escrowed deposit: the tokens held and the time they unlock.
      Both values are fixed when the lock is created. */
  datatype Lock = Lock(unlockTime: nat, lockAmount: nat)

  /** isUnlocked: a lock is shown as unlocked from its unlock time on. */
  predicate IsUnlocked(unlockTime: nat, now: nat)
  {
    unlockTime <= now
  }

  /** Once unlocked, a lock stays unlocked at every later time. */
  lemma UnlockedStaysUnlocked(unlockTime: nat, now: nat, later: nat)
    requires now <= later
    ensures IsUnlocked(unlockTime, now) ==> IsUnlocked(unlockTime, later)
    ensures !IsUnlocked(unlockTime, later) ==> !IsUnlocked(unlockTime, now)
  {
  }

  /** reduceTotal: the sum of the lock amounts, accumulated from the
      first lock to the last as Array.prototype.reduce does. */
  function Total(locks: seq<Lock>): nat
  {
    if locks == [] then 0
    else Total(locks[..|locks| - 1]) + locks[|locks| - 1].lockAmount
  }

  lemma TotalEmpty()
    ensures Total([]) == 0
  {
  }

  /** The total of a concatenation is the sum of the totals. */
  lemma {:induction false} TotalAppend(a: seq<Lock>, b: seq<Lock>)
    ensures Total(a + b) == Total(a) + Total(b)
    decreases |b|
  {
    if b == [] {
      assert a + b == a;
    } else {
      var n := |b| - 1;
      assert (a + b)[..|a + b| - 1] == a + b[..n];
      TotalAppend(a, b[..n]);
    }
  }

  lemma TotalCons(x: Lock, rest: seq<Lock>)
    ensures Total([x] + rest) == x.lockAmount + Total(rest)
  {
    TotalAppend([x], rest);
    assert [x][..0] == [];
  }

  /** A prefix never holds more than the whole list. */
  lemma TotalPrefix(locks: seq<Lock>, n: nat)
    requires n <= |locks|
    ensures Total(locks[..n]) + Total(locks[n..]) == Total(locks)
    ensures Total(locks[..n]) <= Total(locks)
  {
    assert locks[..n] + locks[n..] == locks;
    TotalAppend(locks[..n], locks[n..]);
  }

  /** Taking one lock out of a list takes its amount out of the total. */
  lemma TotalRemove(b: seq<Lock>, i: nat)
    requires i < |b|
    ensures Total(b) == b[i].lockAmount + Total(b[..i] + b[i + 1..])
  {
    var pre, post := b[..i], b[i + 1..];
    var tail := b[i..];
    assert b == pre + tail;
    assert tail == [b[i]] + post;
    TotalAppend(pre, tail);
    TotalCons(b[i], post);
    TotalAppend(pre, post);
  }

  /** Every lock's amount is counted in the total. */
  lemma TotalBoundsEach(locks: seq<Lock>, i: nat)
    requires i < |locks|
    ensures locks[i].lockAmount <= Total(locks)
  {
    TotalRemove(locks, i);
  }

  /** The total does not depend on the order of the locks. */
  lemma {:induction false} TotalPermutation(a: seq<Lock>, b: seq<Lock>)
    requires multiset(a) == multiset(b)
    ensures Total(a) == Total(b)
    decreases |a|
  {
    if a == [] {
      assert |b| == |multiset(b)| == 0;
    } else {
      var x := a[0];
      assert x in multiset(b);
      var i :| 0 <= i < |b| && b[i] == x;
      var rest := b[..i] + b[i + 1..];
      assert b == b[..i] + [x] + b[i + 1..];
      assert a == [x] + a[1..];
      assert multiset(rest) == multiset(b) - multiset{x};
      assert multiset(a[1..]) == multiset(a) - multiset{x};
      TotalPermutation(a[1..], rest);
      TotalCons(x, a[1..]);
      TotalRemove(b, i);
    }
  }

  /** `locks.filter(p)`: the locks `p` keeps, in their original order. */
  function Filter(locks: seq<Lock>, p: Lock -> bool): (r: seq<Lock>)
    ensures |r| <= |locks|
    ensures forall l :: l in r <==> l in locks && p(l)
  {
    if locks == [] then []
    else (if p(locks[0]) then [locks[0]] else []) + Filter(locks[1..], p)
  }

  /** Filtering distributes over concatenation, so the kept locks keep
      their relative order. */
  lemma {:induction false} FilterAppend(a: seq<Lock>, b: seq<Lock>, p: Lock -> bool)
    ensures Filter(a + b, p) == Filter(a, p) + Filter(b, p)
    decreases |a|
  {
    if a != [] {
      assert (a + b)[0] == a[0];
      assert (a + b)[1..] == a[1..] + b;
      FilterAppend(a[1..], b, p);
    } else {
      assert a + b == b;
    }
  }

  /** Every lock `p` keeps occurs in the result exactly as often as in the
      input, and every other lock not at all. */
  lemma {:induction false} FilterCount(locks: seq<Lock>, p: Lock -> bool, l: Lock)
    ensures multiset(Filter(locks, p))[l] == if p(l) then multiset(locks)[l] else 0
    decreases |locks|
  {
    if locks != [] {
      FilterCount(locks[1..], p, l);
      assert locks == [locks[0]] + locks[1..];
    }
  }

  lemma FilterCounts(locks: seq<Lock>, p: Lock -> bool)
    ensures forall l :: multiset(Filter(locks, p))[l] == if p(l) then multiset(locks)[l] else 0
  {
    forall l
      ensures multiset(Filter(locks, p))[l] == if p(l) then multiset(locks)[l] else 0
    {
      FilterCount(locks, p, l);
    }
  }

  /** Two predicates that agree on every lock of the list keep the same locks. */
  lemma {:induction false} FilterAgree(locks: seq<Lock>, p: Lock -> bool, q: Lock -> bool)
    requires forall l :: l in locks ==> (p(l) <==> q(l))
    ensures Filter(locks, p) == Filter(locks, q)
    decreases |locks|
  {
    if locks != [] {
      assert locks[0] in locks;
      assert forall l :: l in locks[1..] ==> l in locks;
      FilterAgree(locks[1..], p, q);
    }
  }

  /** A predicate and its complement split the list: together they keep
      every lock exactly once. */
  lemma FilterSplit(locks: seq<Lock>, p: Lock -> bool, q: Lock -> bool)
    requires forall l :: q(l) <==> !p(l)
    ensures multiset(Filter(locks, p)) + multiset(Filter(locks, q)) == multiset(locks)
  {
    forall l
      ensures (multiset(Filter(locks, p)) + multiset(Filter(locks, q)))[l] == multiset(locks)[l]
    {
      FilterCount(locks, p, l);
      FilterCount(locks, q, l);
    }
  }

  /** For any partition of the locks by a predicate and its complement, the
      two totals add up to the overall total. */
  lemma TotalFilterPartition(locks: seq<Lock>, p: Lock -> bool, q: Lock -> bool)
    requires forall l :: q(l) <==> !p(l)
    ensures Total(Filter(locks, p)) + Total(Filter(locks, q)) == Total(locks)
  {
    FilterSplit(locks, p, q);
    TotalAppend(Filter(locks, p), Filter(locks, q));
    TotalPermutation(Filter(locks, p) + Filter(locks, q), locks);
  }

  /** The locks shown as unlocked at `now`, in their original order. */
  function Unlocked(locks: seq<Lock>, now: nat): (r: seq<Lock>)
    ensures forall l :: l in r <==> l in locks && IsUnlocked(l.unlockTime, now)
    ensures forall l :: multiset(r)[l] == if IsUnlocked(l.unlockTime, now) then multiset(locks)[l] else 0
  {
    FilterCounts(locks, (l: Lock) => IsUnlocked(l.unlockTime, now));
    Filter(locks, (l: Lock) => IsUnlocked(l.unlockTime, now))
  }

  /** The locks still shown as locked at `now`, in their original order. */
  function StillLocked(locks: seq<Lock>, now: nat): (r: seq<Lock>)
    ensures forall l :: l in r <==> l in locks && !IsUnlocked(l.unlockTime, now)
    ensures forall l :: multiset(r)[l] == if IsUnlocked(l.unlockTime, now) then 0 else multiset(locks)[l]
  {
    FilterCounts(locks, (l: Lock) => !IsUnlocked(l.unlockTime, now));
    Filter(locks, (l: Lock) => !IsUnlocked(l.unlockTime, now))
  }

  /** Splitting the locks into unlocked and locked ones keeps each lock
      exactly once and splits the total. */
  lemma TotalPartition(locks: seq<Lock>, now: nat)
    ensures multiset(Unlocked(locks, now)) + multiset(StillLocked(locks, now)) == multiset(locks)
    ensures Total(Unlocked(locks, now)) + Total(StillLocked(locks, now)) == Total(locks)
  {
    var p := (l: Lock) => IsUnlocked(l.unlockTime, now);
    var q := (l: Lock) => !IsUnlocked(l.unlockTime, now);
    FilterSplit(locks, p, q);
    TotalFilterPartition(locks, p, q);
  }
}

=== FILE: map_sums.dfy ===
/** Sums over finite maps from addresses to amounts, used to state token
    conservation (sum of all balances) and escrow solvency (sum of all
    locked amounts). */
module MapSums {

  /** The sum of every value in `m`, in no particular order. */
  ghost function Sum(m: map<nat, nat>): nat
    decreases m.Keys
  {
    if m.Keys == {} then 0
    else
      var k :| k in m.Keys;
      m[k] + Sum(m - {k})
  }

  /** The value at `k`, or 0 when `k` has no entry. */
  function ValueAt(m: map<nat, nat>, k: nat): nat
  {
    if k in m then m[k] else 0
  }

  /** Any entry can be split off the sum, whichever one `Sum` picked. */
  lemma {:induction false} SumRemove(m: map<nat, nat>, k: nat)
    requires k in m
    ensures Sum(m) == m[k] + Sum(m - {k})
    decreases m.Keys
  {
    var j :| j in m && Sum(m) == m[j] + Sum(m - {j});
    if j != k {
      var mj := m - {j};
      var mk := m - {k};
      assert mj.Keys < m.Keys;
      SumRemove(mj, k);
      assert mk.Keys < m.Keys;
      SumRemove(mk, j);
      assert mj - {k} == mk - {j};
    }
  }

  /** Overwriting one entry changes the sum by exactly the difference. */
  lemma SumUpdate(m: map<nat, nat>, k: nat, v: nat)
    ensures Sum(m[k := v]) + ValueAt(m, k) == Sum(m) + v
    ensures ValueAt(m, k) <= Sum(m)
  {
    SumRemove(m[k := v], k);
    if k in m {
      SumRemove(m, k);
      assert m[k := v] - {k} == m - {k};
    } else {
      assert m[k := v] - {k} == m;
    }
  }
}

=== FILE: mirror.dfy ===
/** The frontend store and the TimeLock app together: fed the events of
    every committed transaction, the store's lock list stays equal to the
    connected account's queue on chain. */
module Mirror {
  import opened Results
  import Escrow
  import Aragon
  import TimeLock
  import Store

  type Address = Aragon.Address

  /** With an account connected, the store lists exactly its locks. */
  predicate Mirrors(st: Store.StoreState, s: TimeLock.State)
  {
    st.account.Some? ==> st.locks == Escrow.LocksOf(s.escrow, st.account.value)
  }

  /** The emitted events as the store receives them, all mined in `block`. */
  function Deliver(events: seq<Aragon.Event>, block: nat): (r: seq<Store.Incoming>)
    ensures |r| == |events|
    ensures forall i :: 0 <= i < |r| ==> r[i] == Store.Incoming(Store.Contract(events[i]), Some(block))
  {
    if events == [] then []
    else [Store.Incoming(Store.Contract(events[0]), Some(block))] + Deliver(events[1..], block)
  }

  /** Connecting an account loads its queue, after which the store mirrors. */
  lemma ConnectingLoadsQueue(currentBlock: nat, same: (Address, Address) -> bool, st: Store.StoreState, s: TimeLock.State, a: Address, block: nat)
    requires block > currentBlock
    ensures
      var incoming := Store.Incoming(Store.AccountsTrigger(Some(a), Escrow.LocksOf(s.escrow, a)), Some(block));
      var st' := Store.Reduce(currentBlock, same, st, incoming);
      && st'.account == Some(a)
      && st'.locks == Escrow.LocksOf(s.escrow, a)
      && Mirrors(st', s)
  {
  }

  /** Every committed transaction, its events delivered in a block newer
      than the store, keeps the store mirroring the chain, provided
      addressesEqual identifies exactly equal addresses. */
  lemma CommittedCallKeepsMirror(currentBlock: nat, same: (Address, Address) -> bool, st: Store.StoreState,
                                 s: TimeLock.State, sender: Address, call: TimeLock.Call, block: nat)
    requires forall x, y :: same(x, y) <==> x == y
    requires block > currentBlock
    requires Mirrors(st, s)
    requires TimeLock.Send(s, sender, call).Ok?
    ensures
      var o := TimeLock.Send(s, sender, call).value;
      Mirrors(Store.ReduceAll(currentBlock, same, st, Deliver(o.events, block)), o.state)
  {
    var o := TimeLock.Send(s, sender, call).value;
    var delivered := Deliver(o.events, block);
    if |o.events| == 1 {
      assert delivered[1..] == [];
      var st' := Store.Reduce(currentBlock, same, st, delivered[0]);
      assert Store.ReduceAll(currentBlock, same, st, delivered) == st';
      match call {
        case CallForward(script, runs) =>
        case CallWithdrawTokens(k) =>
          WithdrawMirrors(st, s, sender, k, st');
        case CallWithdrawAllTokens =>
          WithdrawMirrors(st, s, sender, |Escrow.LocksOf(s.escrow, sender)|, st');
        case _ =>
      }
    } else {
      assert o.events == [];
    }
  }

  lemma WithdrawMirrors(st: Store.StoreState, s: TimeLock.State, sender: Address, k: nat, st': Store.StoreState)
    requires Mirrors(st, s)
    requires TimeLock.WithdrawTokens(s, sender, k).Ok?
    requires
      var w := Escrow.Withdraw(s.escrow, sender, k, s.now).value;
      && (st.account == Some(sender) ==> st' == st.(locks := Store.Slice(st.locks, w.count)))
      && (st.account != Some(sender) ==> st' == st)
    ensures Mirrors(st', TimeLock.WithdrawTokens(s, sender, k).value.state)
  {
  }
}

=== FILE: results.dfy ===
/** Success/revert results of the escrow contracts, with the revert
    reasons the contracts surface by their error strings. */
module Results {

  datatype Reason =
    | AppAuthFailed          // APP_AUTH_FAILED: caller lacks the role, or the app is not initialised
    | AlreadyInitialized     // INIT_ALREADY_INITIALIZED: a second initialize call
    | CanNotForward          // LOCK_CAN_NOT_FORWARD: the forwarding gate refused the caller
    | TransferReverted       // LOCK_TRANSFER_REVERTED: the token transfer failed
    | TooManyWithdrawLocks   // LOCK_TOO_MANY_WITHDRAW_LOCKS: more locks requested than held
    | ScriptReverted         // the forwarded EVM script itself reverted

  /** A call either commits with a value or reverts, leaving no trace. */
  datatype Result<+T> = Ok(value: T) | Revert(reason: Reason)

  /** A value that may be absent: a setting not yet loaded, a missing block
      number, a string that does not parse. */
  datatype Option<+T> = None | Some(value: T)
}

=== FILE: store.dfy ===
/** The frontend's background store (app/src/script.js): a reducer that
    mirrors the connected account's lock queue and the app settings from
    the events the contract emits. Calls back into the contract are
    replaced by their results, carried on the events that need them. */
module Store {
  import opened Results
  import opened Locks
  import Aragon

  type Address = Aragon.Address

  /** Token metadata as getTokenData loads it; None when loading failed. */
  datatype TokenData = TokenData(address: Address, name: string, symbol: string, decimals: nat)

  /** state.settings: the token and the two lock settings, each absent
      until loaded. */
  datatype Settings = Settings(token: Option<TokenData>, duration: Option<nat>, amount: Option<nat>)

  /** The store's state. `account` is None while no account is connected;
      `locks` mirrors that account's queue, oldest first. */
  datatype StoreState = StoreState(isSyncing: bool, settings: Settings, account: Option<Address>, locks: seq<Lock>)

  /** The events the store reacts to. ACCOUNTS_TRIGGER carries the queue
      that updateConnectedAccount reads back from the contract. */
  datatype EventKind =
    | AccountsTrigger(account: Option<Address>, fetched: seq<Lock>)
    | SyncStatusSyncing
    | SyncStatusSynced
    | Contract(event: Aragon.Event)
    | Other(name: string)

  /** An event as delivered, with its block number when it has one. */
  datatype Incoming = Incoming(kind: EventKind, blockNumber: Option<nat>)

  /** Past events are ignored: a (truthy, so non-zero) block number at or
      below the block the store was created at. */
  predicate IsStale(currentBlock: nat, blockNumber: Option<nat>)
  {
    blockNumber.Some? && blockNumber.value != 0 && blockNumber.value <= currentBlock
  }

  /** Whether an event about `who` concerns the connected account;
      `same` is addressesEqual. */
  predicate ForConnected(same: (Address, Address) -> bool, state: StoreState, who: Address)
  {
    state.account.Some? && same(who, state.account.value)
  }

  /** newLock: append the lock when it belongs to the connected account. */
  function NewLock(same: (Address, Address) -> bool, state: StoreState, lockAddress: Address, unlockTime: nat, lockAmount: nat): (r: StoreState)
    ensures ForConnected(same, state, lockAddress) ==>
      && |r.locks| == |state.locks| + 1
      && r.locks[..|state.locks|] == state.locks
      && r.locks[|state.locks|] == Lock(unlockTime, lockAmount)
      && r.(locks := state.locks) == state
    ensures !ForConnected(same, state, lockAddress) ==> r == state
  {
    if !ForConnected(same, state, lockAddress) then state
    else state.(locks := state.locks + [Lock(unlockTime, lockAmount)])
  }

  /** locks.slice(k) for a non-negative k: everything from index k on. */
  function Slice(locks: seq<Lock>, k: nat): (r: seq<Lock>)
    ensures k >= |locks| ==> r == []
    ensures k < |locks| ==> |r| == |locks| - k && forall i :: 0 <= i < |r| ==> r[i] == locks[k + i]
  {
    if k >= |locks| then [] else locks[k..]
  }

  /** newWithdrawal: drop the first `count` locks of the connected account. */
  function NewWithdrawal(same: (Address, Address) -> bool, state: StoreState, withdrawalAddress: Address, count: nat): (r: StoreState)
    ensures ForConnected(same, state, withdrawalAddress) ==>
      && r.locks == Slice(state.locks, count)
      && r.(locks := state.locks) == state
    ensures !ForConnected(same, state, withdrawalAddress) ==> r == state
  {
    if !ForConnected(same, state, withdrawalAddress) then state
    else state.(locks := Slice(state.locks, count))
  }

  /** updateLockDuration: only settings.duration changes. */
  function UpdateLockDuration(state: StoreState, newLockDuration: nat): (r: StoreState)
    ensures r.settings.duration == Some(newLockDuration)
    ensures r.settings.token == state.settings.token && r.settings.amount == state.settings.amount
    ensures r.(settings := state.settings) == state
  {
    state.(settings := state.settings.(duration := Some(newLockDuration)))
  }

  /** updateLockAmount: only settings.amount changes. */
  function UpdateLockAmount(state: StoreState, newLockAmount: nat): (r: StoreState)
    ensures r.settings.amount == Some(newLockAmount)
    ensures r.settings.token == state.settings.token && r.settings.duration == state.settings.duration
    ensures r.(settings := state.settings) == state
  {
    state.(settings := state.settings.(amount := Some(newLockAmount)))
  }

  /** The cases of the reducer's switch that handle the app's own events. */
  function OnContractEvent(same: (Address, Address) -> bool, state: StoreState, e: Aragon.Event): StoreState
  {
    match e
    case ChangeLockDuration(v) => UpdateLockDuration(state, v)
    case ChangeLockAmount(v) => UpdateLockAmount(state, v)
    case NewLock(who, unlockTime, lockAmount) => NewLock(same, state, who, unlockTime, lockAmount)
    case Withdrawal(who, count) => NewWithdrawal(same, state, who, count)
  }

  /** The store reducer. */
  function Reduce(currentBlock: nat, same: (Address, Address) -> bool, state: StoreState, incoming: Incoming): (r: StoreState)
    ensures IsStale(currentBlock, incoming.blockNumber) ==> r == state
    ensures incoming.kind.Other? ==> r == state
    ensures !IsStale(currentBlock, incoming.blockNumber) && incoming.kind.SyncStatusSyncing? ==> r == state.(isSyncing := true)
    ensures !IsStale(currentBlock, incoming.blockNumber) && incoming.kind.SyncStatusSynced? ==> r == state.(isSyncing := false)
    ensures !IsStale(currentBlock, incoming.blockNumber) && incoming.kind.AccountsTrigger? ==>
      r == state.(locks := incoming.kind.fetched, account := incoming.kind.account)
    ensures !IsStale(currentBlock, incoming.blockNumber) && incoming.kind.Contract? ==>
      match incoming.kind.event
      case ChangeLockDuration(v) => r == state.(settings := state.settings.(duration := Some(v)))
      case ChangeLockAmount(v) => r == state.(settings := state.settings.(amount := Some(v)))
      case NewLock(who, unlockTime, lockAmount) =>
        && (ForConnected(same, state, who) ==> r == state.(locks := state.locks + [Lock(unlockTime, lockAmount)]))
        && (!ForConnected(same, state, who) ==> r == state)
      case Withdrawal(who, count) =>
        && (ForConnected(same, state, who) ==> r == state.(locks := Slice(state.locks, count)))
        && (!ForConnected(same, state, who) ==> r == state)
    ensures r.settings != state.settings ==>
      && incoming.kind.Contract?
      && (incoming.kind.event.ChangeLockDuration? || incoming.kind.event.ChangeLockAmount?)
      && r.(settings := state.settings) == state
    ensures r.locks != state.locks ==> incoming.kind.AccountsTrigger? || incoming.kind.Contract?
  {
    if IsStale(currentBlock, incoming.blockNumber) then state
    else match incoming.kind
      case AccountsTrigger(account, fetched) => state.(locks := fetched, account := account)
      case SyncStatusSyncing => state.(isSyncing := true)
      case SyncStatusSynced => state.(isSyncing := false)
      case Contract(e) => OnContractEvent(same, state, e)
      case Other(_) => state
  }

  /** Feeding a sequence of events, in order. */
  function ReduceAll(currentBlock: nat, same: (Address, Address) -> bool, state: StoreState, events: seq<Incoming>): StoreState
    decreases |events|
  {
    if events == [] then state
    else ReduceAll(currentBlock, same, Reduce(currentBlock, same, state, events[0]), events[1..])
  }
}

=== FILE: time_lock.dfy ===
/** The penalty-escalating escrow (TimeLock): an account pays a fee into
    escrow to forward an action; the fee and the hold time grow with the
    number of locks the account still has in escrow. */
module TimeLock {
  import opened Results
  import opened Locks
  import opened Erc20
  import opened Escrow
  import Aragon

  /** Fixed-point base of the penalty factor: PCT_BASE is 100%. */
  const PCT_BASE: nat := 1_000_000_000_000_000_000

  /** pct16(x): x percent in the penalty factor's fixed-point scale. */
  function Pct16(x: nat): nat
  {
    x * 10_000_000_000_000_000
  }

  datatype Config = Config(token: Address, lockDuration: nat, lockAmount: nat, spamPenaltyFactor: nat)

  /** The app's storage plus the world it runs in: the token, the ACL, the
      block time and the scripts it has run (the forwarded actions). */
  datatype State = State(
    initialized: bool,
    config: Config,
    escrow: Escrow,
    acl: Aragon.Acl,
    now: nat,
    executed: seq<Aragon.EvmScript>)

  /** A committed call: the state after it and the events it emitted. */
  datatype Outcome = Outcome(state: State, events: seq<Aragon.Event>)

  datatype Penalty = Penalty(amount: nat, duration: nat)

  datatype Fee = Fee(token: Address, amount: nat)

  /** A freshly installed app instance: not initialised, zero storage. */
  function Deployed(erc20: Token, acl: Aragon.Acl, now: nat): (s: State)
    ensures !s.initialized && s.executed == []
    ensures forall a :: LocksOf(s.escrow, a) == []
  {
    State(false, Config(0, 0, 0, 0), Escrow(map[], erc20), acl, now, [])
  }

  /** The penalty for the next lock of an account holding `active` locks:
      the factor's share of the base amount and of the base duration, once
      per active lock, rounded down. */
  function SpamPenalty(config: Config, active: nat): (p: Penalty)
    ensures p.amount * PCT_BASE <= active * config.lockAmount * config.spamPenaltyFactor < (p.amount + 1) * PCT_BASE
    ensures p.duration * PCT_BASE <= active * config.lockDuration * config.spamPenaltyFactor < (p.duration + 1) * PCT_BASE
  {
    Penalty(active * config.lockAmount * config.spamPenaltyFactor / PCT_BASE,
            active * config.lockDuration * config.spamPenaltyFactor / PCT_BASE)
  }

  /** getSpamPenalty(), as called by `sender`. */
  function GetSpamPenalty(s: State, sender: Address): (p: Penalty)
    ensures LocksOf(s.escrow, sender) == [] ==> p == Penalty(0, 0)
    ensures s.config.spamPenaltyFactor == 0 ==> p == Penalty(0, 0)
  {
    SpamPenalty(s.config, |LocksOf(s.escrow, sender)|)
  }

  /** forwardFee(), as called by `sender`: the token and the base amount
      plus the penalty. */
  function ForwardFee(s: State, sender: Address): (f: Fee)
    ensures f.token == s.config.token
    ensures f.amount >= s.config.lockAmount
  {
    Fee(s.config.token, s.config.lockAmount + GetSpamPenalty(s, sender).amount)
  }

  /** The lock `sender` would get from forwarding now. */
  function NextLock(s: State, sender: Address): (l: Lock)
    ensures l.lockAmount == ForwardFee(s, sender).amount
    ensures l.unlockTime >= s.now + s.config.lockDuration
  {
    Lock(s.now + s.config.lockDuration + GetSpamPenalty(s, sender).duration, ForwardFee(s, sender).amount)
  }

  /** canForward(sender, script) */
  predicate CanForward(s: State, sender: Address)
    ensures CanForward(s, sender) ==> s.initialized
  {
    Aragon.CanPerform(s.initialized, s.acl, sender, Aragon.LockTokensRole)
  }

  /** initialize(token, lockDuration, lockAmount, spamPenaltyFactor) */
  function Initialize(s: State, token: Address, lockDuration: nat, lockAmount: nat, spamPenaltyFactor: nat): (r: Result<Outcome>)
    ensures s.initialized <==> r == Revert(AlreadyInitialized)
    ensures r.Ok? ==>
      && r.value.state.initialized
      && r.value.state.config == Config(token, lockDuration, lockAmount, spamPenaltyFactor)
      && r.value.state.escrow == s.escrow
  {
    if s.initialized then Revert(AlreadyInitialized)
    else Ok(Outcome(s.(initialized := true, config := Config(token, lockDuration, lockAmount, spamPenaltyFactor)), []))
  }

  /** changeLockDuration(v): only the duration changes; no lock is touched. */
  function ChangeLockDuration(s: State, sender: Address, v: nat): (r: Result<Outcome>)
    ensures r.Ok? <==> Aragon.CanPerform(s.initialized, s.acl, sender, Aragon.ChangeDurationRole)
    ensures r.Revert? ==> r.reason == AppAuthFailed
    ensures r.Ok? ==>
      && r.value.state.config == s.config.(lockDuration := v)
      && r.value.state.escrow == s.escrow
      && r.value.events == [Aragon.ChangeLockDuration(v)]
  {
    if !Aragon.CanPerform(s.initialized, s.acl, sender, Aragon.ChangeDurationRole) then Revert(AppAuthFailed)
    else Ok(Outcome(s.(config := s.config.(lockDuration := v)), [Aragon.ChangeLockDuration(v)]))
  }

  /** changeLockAmount(v): only the amount changes; no lock is touched. */
  function ChangeLockAmount(s: State, sender: Address, v: nat): (r: Result<Outcome>)
    ensures r.Ok? <==> Aragon.CanPerform(s.initialized, s.acl, sender, Aragon.ChangeAmountRole)
    ensures r.Revert? ==> r.reason == AppAuthFailed
    ensures r.Ok? ==>
      && r.value.state.config == s.config.(lockAmount := v)
      && r.value.state.escrow == s.escrow
      && r.value.events == [Aragon.ChangeLockAmount(v)]
  {
    if !Aragon.CanPerform(s.initialized, s.acl, sender, Aragon.ChangeAmountRole) then Revert(AppAuthFailed)
    else Ok(Outcome(s.(config := s.config.(lockAmount := v)), [Aragon.ChangeLockAmount(v)]))
  }

  /** changeSpamPenaltyFactor(v): only the factor changes; no lock is touched. */
  function ChangeSpamPenaltyFactor(s: State, sender: Address, v: nat): (r: Result<Outcome>)
    ensures r.Ok? <==> Aragon.CanPerform(s.initialized, s.acl, sender, Aragon.ChangeSpamPenaltyRole)
    ensures r.Revert? ==> r.reason == AppAuthFailed
    ensures r.Ok? ==>
      && r.value.state.config == s.config.(spamPenaltyFactor := v)
      && r.value.state.escrow == s.escrow
  {
    if !Aragon.CanPerform(s.initialized, s.acl, sender, Aragon.ChangeSpamPenaltyRole) then Revert(AppAuthFailed)
    else Ok(Outcome(s.(config := s.config.(spamPenaltyFactor := v)), []))
  }

  /** The part of forward(script) behind the gate, shared by both app
      variants: the fee capture, the new lock and the forwarded script
      commit together or not at all; `scriptRuns` says whether the
      forwarded script would succeed. */
  function Lodge(s: State, sender: Address, lock: Lock, script: Aragon.EvmScript, scriptRuns: bool): (r: Result<Outcome>)
    ensures r.Ok? <==> lock.lockAmount <= BalanceOf(s.escrow.erc20, sender)
                       && lock.lockAmount <= Allowance(s.escrow.erc20, sender) && scriptRuns
    ensures lock.lockAmount > Allowance(s.escrow.erc20, sender) ==> r == Revert(TransferReverted)
    ensures r.Ok? ==>
      var s' := r.value.state;
      && LocksOf(s'.escrow, sender) == LocksOf(s.escrow, sender) + [lock]
      && (forall b :: b != sender ==> LocksOf(s'.escrow, b) == LocksOf(s.escrow, b))
      && BalanceOf(s'.escrow.erc20, sender) + lock.lockAmount == BalanceOf(s.escrow.erc20, sender)
      && Allowance(s'.escrow.erc20, sender) + lock.lockAmount == Allowance(s.escrow.erc20, sender)
      && s'.escrow.erc20.custody == s.escrow.erc20.custody + lock.lockAmount
      && (forall b :: b != sender ==> BalanceOf(s'.escrow.erc20, b) == BalanceOf(s.escrow.erc20, b))
      && s'.executed == s.executed + [script]
      && s' == s.(escrow := s'.escrow, executed := s'.executed)
      && r.value.events == [Aragon.NewLock(sender, lock.unlockTime, lock.lockAmount)]
  {
    match Deposit(s.escrow, sender, lock)
    case Revert(reason) => Revert(reason)
    case Ok(e) =>
      if !scriptRuns then Revert(ScriptReverted)
      else Ok(Outcome(s.(escrow := e, executed := s.executed + [script]),
                      [Aragon.NewLock(sender, lock.unlockTime, lock.lockAmount)]))
  }

  /** forward(script) from `sender`: the LOCK_TOKENS_ROLE gate, then the
      next lock, priced with the penalty, is lodged. */
  function Forward(s: State, sender: Address, script: Aragon.EvmScript, scriptRuns: bool): (r: Result<Outcome>)
    ensures
      var fee := ForwardFee(s, sender).amount;
      r.Ok? <==> CanForward(s, sender) && fee <= BalanceOf(s.escrow.erc20, sender)
                 && fee <= Allowance(s.escrow.erc20, sender) && scriptRuns
    ensures !CanForward(s, sender) ==> r == Revert(CanNotForward)
    ensures CanForward(s, sender) && ForwardFee(s, sender).amount > Allowance(s.escrow.erc20, sender) ==> r == Revert(TransferReverted)
    ensures r.Ok? ==>
      var s' := r.value.state;
      var fee := ForwardFee(s, sender).amount;
      var lock := Lock(s.now + s.config.lockDuration + GetSpamPenalty(s, sender).duration, fee);
      && LocksOf(s'.escrow, sender) == LocksOf(s.escrow, sender) + [lock]
      && (forall b :: b != sender ==> LocksOf(s'.escrow, b) == LocksOf(s.escrow, b))
      && BalanceOf(s'.escrow.erc20, sender) + fee == BalanceOf(s.escrow.erc20, sender)
      && s'.escrow.erc20.custody == s.escrow.erc20.custody + fee
      && (forall b :: b != sender ==> BalanceOf(s'.escrow.erc20, b) == BalanceOf(s.escrow.erc20, b))
      && s'.executed == s.executed + [script]
      && s'.config == s.config && s'.now == s.now && s'.acl == s.acl && s'.initialized
      && r.value.events == [Aragon.NewLock(sender, lock.unlockTime, lock.lockAmount)]
  {
    if !CanForward(s, sender) then Revert(CanNotForward)
    else Lodge(s, sender, NextLock(s, sender), script, scriptRuns)
  }

  /** withdrawTokens(k) from `sender`. */
  function WithdrawTokens(s: State, sender: Address, k: nat): (r: Result<Outcome>)
    ensures k > |LocksOf(s.escrow, sender)| <==> r == Revert(TooManyWithdrawLocks)
    ensures r.Ok? ==>
      && Withdraw(s.escrow, sender, k, s.now).Ok?
      && var w := Withdraw(s.escrow, sender, k, s.now).value;
      && r.value.state == s.(escrow := w.escrow)
      && r.value.events == [Aragon.Withdrawal(sender, w.count)]
  {
    match Withdraw(s.escrow, sender, k, s.now)
    case Revert(reason) => Revert(reason)
    case Ok(w) => Ok(Outcome(s.(escrow := w.escrow), [Aragon.Withdrawal(sender, w.count)]))
  }

  /** withdrawAllTokens() from `sender`: every lock it holds is requested. */
  function WithdrawAllTokens(s: State, sender: Address): (r: Result<Outcome>)
    ensures r != Revert(TooManyWithdrawLocks)
    ensures Solvent(s.escrow) ==> r.Ok?
  {
    WithdrawTokens(s, sender, |LocksOf(s.escrow, sender)|)
  }

  /** mockIncreaseTime(dt): the block time moves forward. */
  function IncreaseTime(s: State, dt: nat): (s': State)
    ensures s'.now >= s.now
    ensures s'.escrow == s.escrow && s'.config == s.config
  {
    s.(now := s.now + dt)
  }

  /** approve(app, amount) sent to the token by `owner`. */
  function ApproveApp(s: State, owner: Address, amount: nat): (s': State)
    ensures Allowance(s'.escrow.erc20, owner) == amount
    ensures forall a :: LocksOf(s'.escrow, a) == LocksOf(s.escrow, a)
  {
    s.(escrow := s.escrow.(erc20 := Approve(s.escrow.erc20, owner, amount)))
  }

  /** transfer(app, amount) sent to the token by `sender`: tokens reach the
      app's address without a lock, and the app is not called. */
  function TransferToApp(s: State, sender: Address, amount: nat): (r: Result<Outcome>)
    ensures r.Ok? <==> amount <= BalanceOf(s.escrow.erc20, sender)
    ensures r.Ok? ==>
      && r.value.state == s.(escrow := r.value.state.escrow)
      && r.value.state.escrow.ledger == s.escrow.ledger
      && r.value.state.escrow.erc20.custody == s.escrow.erc20.custody + amount
      && r.value.events == []
  {
    match Receive(s.escrow, sender, amount)
    case Revert(reason) => Revert(reason)
    case Ok(e) => Ok(Outcome(s.(escrow := e), []))
  }

  /** One transaction sent by some account. */
  datatype Call =
    | CallInitialize(token: Address, lockDuration: nat, lockAmount: nat, spamPenaltyFactor: nat)
    | CallChangeLockDuration(lockDuration: nat)
    | CallChangeLockAmount(lockAmount: nat)
    | CallChangeSpamPenaltyFactor(spamPenaltyFactor: nat)
    | CallForward(script: Aragon.EvmScript, scriptRuns: bool)
    | CallWithdrawTokens(count: nat)
    | CallWithdrawAllTokens
    | CallApprove(amount: nat)
    | CallIncreaseTime(dt: nat)
    | CallTransferToApp(amount: nat)

  /** Sending `call` from `sender`: what it commits, or why it reverts. */
  function Send(s: State, sender: Address, call: Call): Result<Outcome>
  {
    match call
    case CallInitialize(t, d, a, f) => Initialize(s, t, d, a, f)
    case CallChangeLockDuration(v) => ChangeLockDuration(s, sender, v)
    case CallChangeLockAmount(v) => ChangeLockAmount(s, sender, v)
    case CallChangeSpamPenaltyFactor(v) => ChangeSpamPenaltyFactor(s, sender, v)
    case CallForward(script, runs) => Forward(s, sender, script, runs)
    case CallWithdrawTokens(k) => WithdrawTokens(s, sender, k)
    case CallWithdrawAllTokens => WithdrawAllTokens(s, sender)
    case CallApprove(amount) => Ok(Outcome(ApproveApp(s, sender, amount), []))
    case CallIncreaseTime(dt) => Ok(Outcome(IncreaseTime(s, dt), []))
    case CallTransferToApp(amount) => TransferToApp(s, sender, amount)
  }

  /** The state after `sender` sends `call`; a revert leaves `s` as it was.
      On an app not yet initialised, forwarding and the three setters all
      revert, so they change nothing. */
  function Step(s: State, sender: Address, call: Call): (s': State)
    ensures Send(s, sender, call).Revert? ==> s' == s
    ensures Send(s, sender, call).Ok? ==> s' == Send(s, sender, call).value.state
    ensures !s.initialized && (call.CallForward? || call.CallChangeLockDuration? || call.CallChangeLockAmount? || call.CallChangeSpamPenaltyFactor?) ==> s' == s
  {
    var r := Send(s, sender, call);
    if r.Ok? then r.value.state else s
  }
}

=== FILE: time_lock_properties.dfy ===
/** What the TimeLock test suite pins down, proved of the TimeLock model
    for all states rather than for the one deployment the tests use. */
module TimeLockProperties {
  import opened Results
  import opened Locks
  import opened Erc20
  import opened Escrow
  import Aragon
  import opened TimeLock

  const TOKEN_UNIT: nat := 1_000_000_000_000_000_000

  /** The configuration the test suite initialises the app with:
      60 seconds, 10 tokens of 18 decimals, a 50% penalty factor. */
  predicate TestConfig(c: Config)
  {
    c.lockDuration == 60 && c.lockAmount == 10 * TOKEN_UNIT && c.spamPenaltyFactor == Pct16(50)
  }

  /** With no active lock there is no penalty and the fee is the base amount. */
  lemma NoPenaltyWithoutLocks(s: State, a: Address)
    requires LocksOf(s.escrow, a) == []
    ensures GetSpamPenalty(s, a) == Penalty(0, 0)
    ensures ForwardFee(s, a) == Fee(s.config.token, s.config.lockAmount)
  {
  }

  /** With one active lock the penalty is the factor's share of one base
      amount and one base duration. */
  lemma PenaltyWithOneLock(s: State, a: Address)
    requires |LocksOf(s.escrow, a)| == 1
    ensures GetSpamPenalty(s, a).amount == s.config.lockAmount * s.config.spamPenaltyFactor / PCT_BASE
    ensures GetSpamPenalty(s, a).duration == s.config.lockDuration * s.config.spamPenaltyFactor / PCT_BASE
  {
  }

  /** The penalty never shrinks as an account accumulates locks. */
  lemma PenaltyMonotone(c: Config, m: nat, n: nat)
    requires m <= n
    ensures SpamPenalty(c, m).amount <= SpamPenalty(c, n).amount
    ensures SpamPenalty(c, m).duration <= SpamPenalty(c, n).duration
  {
    MulMonotone(m, n, c.lockAmount * c.spamPenaltyFactor);
    MulMonotone(m, n, c.lockDuration * c.spamPenaltyFactor);
    assert m * c.lockAmount * c.spamPenaltyFactor == m * (c.lockAmount * c.spamPenaltyFactor);
    assert n * c.lockAmount * c.spamPenaltyFactor == n * (c.lockAmount * c.spamPenaltyFactor);
    assert m * c.lockDuration * c.spamPenaltyFactor == m * (c.lockDuration * c.spamPenaltyFactor);
    assert n * c.lockDuration * c.spamPenaltyFactor == n * (c.lockDuration * c.spamPenaltyFactor);
  }

  lemma MulMonotone(m: nat, n: nat, x: nat)
    requires m <= n
    ensures m * x <= n * x
  {
    assert n * x == m * x + (n - m) * x;
  }

  /** A zero factor turns the app into a flat-fee escrow. */
  lemma ZeroFactorIsFlat(s: State, a: Address)
    requires s.config.spamPenaltyFactor == 0
    ensures GetSpamPenalty(s, a) == Penalty(0, 0)
    ensures ForwardFee(s, a).amount == s.config.lockAmount
  {
  }

  /** At a 50% factor with one active lock the penalty is 5 tokens and 30
      seconds, and the fee is 15 tokens. */
  lemma HalfFactorWithOneLock(s: State, a: Address)
    requires TestConfig(s.config) && |LocksOf(s.escrow, a)| == 1
    ensures GetSpamPenalty(s, a) == Penalty(5 * TOKEN_UNIT, 30)
    ensures ForwardFee(s, a).amount == 15 * TOKEN_UNIT
  {
  }

  /** ... and the second lock is stored with those 15 tokens. */
  lemma SecondLockAtHalfFactor(s: State, a: Address, script: Aragon.EvmScript)
    requires TestConfig(s.config) && |LocksOf(s.escrow, a)| == 1
    requires Forward(s, a, script, true).Ok?
    ensures LocksOf(Forward(s, a, script, true).value.state.escrow, a)[1] == Lock(s.now + 90, 15 * TOKEN_UNIT)
  {
    HalfFactorWithOneLock(s, a);
  }

  /** Raising the factor to 100% reprices the next lock of an account that
      already holds one: 10 tokens and 60 seconds of penalty, a 20 token
      fee, and the second lock is stored with 20 tokens. */
  lemma RaisedFactorWithOneLock(s: State, admin: Address, a: Address, script: Aragon.EvmScript)
    requires TestConfig(s.config) && |LocksOf(s.escrow, a)| == 1
    requires ChangeSpamPenaltyFactor(s, admin, Pct16(100)).Ok?
    ensures
      var s' := ChangeSpamPenaltyFactor(s, admin, Pct16(100)).value.state;
      && GetSpamPenalty(s', a) == Penalty(10 * TOKEN_UNIT, 60)
      && ForwardFee(s', a).amount == 20 * TOKEN_UNIT
      && (Forward(s', a, script, true).Ok? ==>
            LocksOf(Forward(s', a, script, true).value.state.escrow, a)[1].lockAmount == 20 * TOKEN_UNIT)
  {
  }

  /** Three forwards in a row from an account with no locks, as in the
      withdrawal tests: the fees escalate to 10, 15 and 20 tokens and the
      hold times to 60, 90 and 120 seconds, each lock keeping its own. */
  lemma ThreeForwardsEscalate(s: State, a: Address, script: Aragon.EvmScript)
    requires TestConfig(s.config) && CanForward(s, a) && LocksOf(s.escrow, a) == []
    requires BalanceOf(s.escrow.erc20, a) >= 45 * TOKEN_UNIT && Allowance(s.escrow.erc20, a) >= 45 * TOKEN_UNIT
    ensures Forward(s, a, script, true).Ok?
    ensures
      var s1 := Forward(s, a, script, true).value.state;
      && Forward(s1, a, script, true).Ok?
      && var s2 := Forward(s1, a, script, true).value.state;
      && Forward(s2, a, script, true).Ok?
      && var s3 := Forward(s2, a, script, true).value.state;
      && LocksOf(s3.escrow, a) == [Lock(s.now + 60, 10 * TOKEN_UNIT), Lock(s.now + 90, 15 * TOKEN_UNIT), Lock(s.now + 120, 20 * TOKEN_UNIT)]
      && BalanceOf(s3.escrow.erc20, a) + 45 * TOKEN_UNIT == BalanceOf(s.escrow.erc20, a)
  {
    var s1 := Forward(s, a, script, true).value.state;
    assert LocksOf(s1.escrow, a) == [Lock(s.now + 60, 10 * TOKEN_UNIT)];
    HalfFactorWithOneLock(s1, a);
    var s2 := Forward(s1, a, script, true).value.state;
    assert LocksOf(s2.escrow, a) == [Lock(s.now + 60, 10 * TOKEN_UNIT), Lock(s.now + 90, 15 * TOKEN_UNIT)];
    assert GetSpamPenalty(s2, a) == Penalty(10 * TOKEN_UNIT, 60);
  }

  /** The new lock is the tail of the queue; the older ones stay as they were. */
  lemma ForwardKeepsOlderLocks(s: State, a: Address, script: Aragon.EvmScript, runs: bool)
    requires Forward(s, a, script, runs).Ok?
    ensures
      var before := LocksOf(s.escrow, a);
      var after := LocksOf(Forward(s, a, script, runs).value.state.escrow, a);
      && |after| == |before| + 1
      && after[..|before|] == before
      && after[|before|].lockAmount == ForwardFee(s, a).amount
  {
    var before := LocksOf(s.escrow, a);
    assert (before + [NextLock(s, a)])[..|before|] == before;
  }

  /** A failing forward is distinguished by its reason: an app that is not
      initialised cannot forward, a missing allowance fails the transfer. */
  lemma ForwardFailures(s: State, a: Address, script: Aragon.EvmScript, runs: bool)
    ensures !s.initialized ==> Forward(s, a, script, runs) == Revert(CanNotForward)
    ensures CanForward(s, a) && Allowance(s.escrow.erc20, a) < ForwardFee(s, a).amount
            ==> Forward(s, a, script, runs) == Revert(TransferReverted)
  {
  }

  /** Asking for up to all locks while the head has not matured succeeds
      and changes nothing: the oldest lock is the first to mature, and the
      withdrawal stops at the first lock that has not. */
  lemma WithdrawBeforeMaturity(s: State, a: Address, k: nat)
    requires k <= |LocksOf(s.escrow, a)|
    requires 0 < k ==> !Matured(LocksOf(s.escrow, a)[0], s.now)
    ensures WithdrawTokens(s, a, k).Ok?
    ensures WithdrawTokens(s, a, k).value.state == s
  {
  }

  /** Asking for one more lock than held always reverts. */
  lemma WithdrawTooMany(s: State, a: Address)
    ensures WithdrawTokens(s, a, |LocksOf(s.escrow, a)| + 1) == Revert(TooManyWithdrawLocks)
  {
  }

  /** Withdrawal is first in, first out: once the oldest lock has matured,
      withdrawing one lock releases exactly that lock and pays back exactly
      its amount. */
  lemma WithdrawOldestFirst(s: State, a: Address)
    requires Solvent(s.escrow)
    requires |LocksOf(s.escrow, a)| >= 1 && LocksOf(s.escrow, a)[0].unlockTime < s.now
    ensures WithdrawTokens(s, a, 1).Ok?
    ensures
      var s' := WithdrawTokens(s, a, 1).value.state;
      && LocksOf(s'.escrow, a) == LocksOf(s.escrow, a)[1..]
      && BalanceOf(s'.escrow.erc20, a) == BalanceOf(s.escrow.erc20, a) + LocksOf(s.escrow, a)[0].lockAmount
  {
    var locks := LocksOf(s.escrow, a);
    assert Total(locks[..1]) == locks[0].lockAmount by {
      assert locks[..1] == [locks[0]];
      TotalCons(locks[0], []);
      assert [locks[0]] + [] == [locks[0]];
    }
  }

  /** The queue the three forwards leave behind, 61 seconds on: only the
      head has matured, so withdrawing one lock returns its 10 tokens and
      not the 15 or 20 of the later ones, and the later two stay queued. */
  lemma HeadMaturesFirst(s: State, a: Address, t: nat)
    requires Solvent(s.escrow) && s.now == t + 61
    requires LocksOf(s.escrow, a) == [Lock(t + 60, 10 * TOKEN_UNIT), Lock(t + 90, 15 * TOKEN_UNIT), Lock(t + 120, 20 * TOKEN_UNIT)]
    ensures WithdrawTokens(s, a, 1).Ok?
    ensures
      var s' := WithdrawTokens(s, a, 1).value.state;
      && LocksOf(s'.escrow, a) == [Lock(t + 90, 15 * TOKEN_UNIT), Lock(t + 120, 20 * TOKEN_UNIT)]
      && BalanceOf(s'.escrow.erc20, a) == BalanceOf(s.escrow.erc20, a) + 10 * TOKEN_UNIT
  {
    WithdrawOldestFirst(s, a);
    assert LocksOf(s.escrow, a)[1..] == [Lock(t + 90, 15 * TOKEN_UNIT), Lock(t + 120, 20 * TOKEN_UNIT)];
  }

  /** Once every lock has matured, withdrawAllTokens empties the queue and
      pays back the sum of all of them. */
  lemma WithdrawAllAfterMaturity(s: State, a: Address)
    requires Solvent(s.escrow)
    requires forall i :: 0 <= i < |LocksOf(s.escrow, a)| ==> LocksOf(s.escrow, a)[i].unlockTime < s.now
    ensures WithdrawAllTokens(s, a).Ok?
    ensures
      var s' := WithdrawAllTokens(s, a).value.state;
      && LocksOf(s'.escrow, a) == []
      && BalanceOf(s'.escrow.erc20, a) == BalanceOf(s.escrow.erc20, a) + Total(LocksOf(s.escrow, a))
  {
    var locks := LocksOf(s.escrow, a);
    assert locks[..|locks|] == locks;
  }

  /** Changing the duration or the amount leaves every existing lock, and
      so every later withdrawal, exactly as it was. */
  lemma ConfigChangeKeepsLocks(s: State, admin: Address, v: nat, a: Address, k: nat)
    ensures ChangeLockDuration(s, admin, v).Ok? ==>
      var s' := ChangeLockDuration(s, admin, v).value.state;
      && LocksOf(s'.escrow, a) == LocksOf(s.escrow, a)
      && WithdrawTokens(s', a, k).Ok? == WithdrawTokens(s, a, k).Ok?
      && (WithdrawTokens(s, a, k).Ok? ==> WithdrawTokens(s', a, k).value.state.escrow == WithdrawTokens(s, a, k).value.state.escrow)
    ensures ChangeLockAmount(s, admin, v).Ok? ==>
      var s' := ChangeLockAmount(s, admin, v).value.state;
      && LocksOf(s'.escrow, a) == LocksOf(s.escrow, a)
      && WithdrawTokens(s', a, k).Ok? == WithdrawTokens(s, a, k).Ok?
      && (WithdrawTokens(s, a, k).Ok? ==> WithdrawTokens(s', a, k).value.state.escrow == WithdrawTokens(s, a, k).value.state.escrow)
  {
  }

  /** The app's global invariant: custody covers the active locks. */
  ghost predicate Invariant(s: State)
  {
    Solvent(s.escrow)
  }

  lemma DeployedInvariant(erc20: Token, acl: Aragon.Acl, now: nat)
    ensures Invariant(Deployed(erc20, acl, now))
    ensures Surplus(Deployed(erc20, acl, now).escrow) == erc20.custody
  {
    assert LockedTotals(map[]) == map[];
  }

  /** Every transaction, committed or reverted, keeps custody covering the
      active locks, never shrinks what custody holds beyond them, and
      neither creates nor destroys tokens. Only a plain transfer to the
      app's address grows that surplus. */
  lemma StepKeepsInvariant(s: State, sender: Address, call: Call)
    requires Invariant(s)
    ensures Invariant(Step(s, sender, call))
    ensures Surplus(Step(s, sender, call).escrow) >= Surplus(s.escrow)
    ensures !call.CallTransferToApp? ==> Surplus(Step(s, sender, call).escrow) == Surplus(s.escrow)
    ensures Supply(Step(s, sender, call).escrow.erc20) == Supply(s.escrow.erc20)
  {
    match call {
      case CallForward(script, runs) =>
        if CanForward(s, sender) {
          DepositKeepsSolvent(s.escrow, sender, NextLock(s, sender));
          DepositConserves(s.escrow, sender, NextLock(s, sender));
        }
      case CallWithdrawTokens(k) =>
        WithdrawKeepsSolvent(s.escrow, sender, k, s.now);
        WithdrawConserves(s.escrow, sender, k, s.now);
      case CallWithdrawAllTokens =>
        WithdrawKeepsSolvent(s.escrow, sender, |LocksOf(s.escrow, sender)|, s.now);
        WithdrawConserves(s.escrow, sender, |LocksOf(s.escrow, sender)|, s.now);
      case CallTransferToApp(amount) =>
        ReceiveKeepsSolvent(s.escrow, sender, amount);
      case _ =>
    }
  }
}

=== FILE: token_oracle.dfy ===
/** scripts/setTokenOracle.js: the command-line arguments it accepts and
    the ACL parameter it packs to make LOCK_TOKENS_ROLE conditional on a
    token-balance oracle. */
module TokenOracle {
  import opened Results

  /** 2^240 (sixty hex digits' worth) and 2^248, the shifts of the
      parameter's two top bytes. */
  const TWO_240: nat := Pow16(60)
  const TWO_248: nat := TWO_240 * 256

  /** The ACL's parameter id telling it to consult an oracle. */
  const ORACLE_ID: nat := 203

  /** new BN(203).shln(248): the oracle id in the top byte. */
  const ORACLE_PARAM_ID: nat := ORACLE_ID * TWO_248

  /** new BN(1).shln(240): the comparison "equals" in the next byte. */
  const EQ: nat := 1 * TWO_240

  /** s.padEnd(n, c) */
  function PadEnd(s: string, n: nat, c: char): (r: string)
    ensures |r| == if |s| >= n then |s| else n
    ensures r[..|s|] == s
    ensures forall i :: |s| <= i < |r| ==> r[i] == c
    decreases n - |s|
  {
    if |s| >= n then s else PadEnd(s + [c], n, c)
  }

  /** ANY_ENTITY: the ACL's wildcard grantee. */
  const ANY_ENTITY: string := PadEnd("0x", 42, 'f')

  lemma AnyEntityShape()
    ensures |ANY_ENTITY| == 42
    ensures ANY_ENTITY[..2] == "0x"
    ensures forall i :: 2 <= i < 42 ==> ANY_ENTITY[i] == 'f'
  {
  }

  /** The value of a hexadecimal digit, either case. */
  function HexDigit(c: char): (d: nat)
    requires IsHexDigit(c)
    ensures d < 16
  {
    if '0' <= c <= '9' then c as nat - '0' as nat
    else if 'a' <= c <= 'f' then c as nat - 'a' as nat + 10
    else c as nat - 'A' as nat + 10
  }

  predicate IsHexDigit(c: char)
  {
    '0' <= c <= '9' || 'a' <= c <= 'f' || 'A' <= c <= 'F'
  }

  /** new BN(s, 16), for a string of hex digits; None for any other
      string. The empty string reads as 0. */
  function ParseHex(s: string): (r: Option<nat>)
    ensures r.Some? <==> forall i :: 0 <= i < |s| ==> IsHexDigit(s[i])
    ensures r.Some? ==> r.value < Pow16(|s|)
  {
    if s == [] then Some(0)
    else match ParseHex(s[..|s| - 1])
      case None => None
      case Some(high) =>
        if !IsHexDigit(s[|s| - 1]) then None
        else Some(high * 16 + HexDigit(s[|s| - 1]))
  }


  function Pow16(n: nat): (p: nat)
    ensures p >= 1
  {
    if n == 0 then 1 else 16 * Pow16(n - 1)
  }

  /** The lower-case digit for a value below 16. */
  function DigitChar(d: nat): (c: char)
    requires d < 16
    ensures IsHexDigit(c) && HexDigit(c) == d
  {
    if d < 10 then ('0' as nat + d) as char else ('a' as nat + d - 10) as char
  }

  /** `n` as exactly `width` lower-case hex digits, most significant first. */
  function FormatHex(n: nat, width: nat): (s: string)
    requires n < Pow16(width)
    ensures |s| == width
    ensures forall i :: 0 <= i < |s| ==> IsHexDigit(s[i])
  {
    if width == 0 then ""
    else FormatHex(n / 16, width - 1) + [DigitChar(n % 16)]
  }

  /** Parsing undoes formatting. */
  lemma {:induction false} ParseFormatHex(n: nat, width: nat)
    requires n < Pow16(width)
    ensures ParseHex(FormatHex(n, width)) == Some(n)
  {
    if width > 0 {
      var s := FormatHex(n, width);
      assert s[..|s| - 1] == FormatHex(n / 16, width - 1);
      ParseFormatHex(n / 16, width - 1);
    }
  }

  /** oracleAddress.slice(2): drop the "0x" prefix, or whatever the first
      two characters are. */
  function Slice2(s: string): (r: string)
    ensures |s| >= 2 ==> s == s[..2] + r
    ensures |s| < 2 ==> r == ""
  {
    if |s| >= 2 then s[2..] else ""
  }

  /** The parameter: oracle id, comparison and oracle address in one word. */
  function Param(oracle: nat): nat
  {
    ORACLE_PARAM_ID + EQ + oracle
  }

  /** Euclidean division by `d` recovers quotient and remainder. */
  lemma DivModUnique(q: nat, r: nat, d: nat)
    requires 0 <= r < d
    ensures (q * d + r) / d == q && (q * d + r) % d == r
  {
    var x := q * d + r;
    var q', r' := x / d, x % d;
    assert q' * d + r' == x;
    assert q' * d < (q + 1) * d;
    MulCancel(q', q + 1, d);
    assert q * d < (q' + 1) * d;
    MulCancel(q, q' + 1, d);
  }

  lemma MulCancel(a: nat, b: nat, d: nat)
    ensures a * d < b * d ==> a < b
  {
    if a >= b {
      assert a * d == b * d + (a - b) * d;
    }
  }

  /** 2^n, the factor of a left shift by n bits. */
  function Pow2(n: nat): (p: nat)
    ensures p >= 1
  {
    if n == 0 then 1 else 2 * Pow2(n - 1)
  }

  /** Shifting by n + m bits is shifting by n, then by m. */
  lemma {:induction false} Pow2Add(n: nat, m: nat)
    ensures Pow2(n + m) == Pow2(n) * Pow2(m)
    decreases m
  {
    if m > 0 {
      Pow2Add(n, m - 1);
      assert Pow2(n + m) == 2 * Pow2(n + m - 1);
    }
  }

  /** A hex digit is four bits. */
  lemma {:induction false} Pow16IsPow2(n: nat)
    ensures Pow16(n) == Pow2(4 * n)
  {
    if n > 0 {
      Pow16IsPow2(n - 1);
      Pow2Add(4 * (n - 1), 4);
      assert Pow2(4) == 16;
    }
  }

  /** The packing constants are the shifts the script writes:
      ORACLE_PARAM_ID is 203 << 248 and EQ is 1 << 240. */
  lemma ShiftConstants()
    ensures TWO_240 == Pow2(240) && TWO_248 == Pow2(248)
    ensures ORACLE_PARAM_ID == 203 * Pow2(248)
    ensures EQ == Pow2(240)
  {
    Pow16IsPow2(60);
    Pow2Add(240, 8);
    assert Pow2(8) == 256;
  }

  /** Powers of sixteen grow strictly. */
  lemma {:induction false} Pow16Increasing(m: nat, n: nat)
    requires m < n
    ensures Pow16(m) < Pow16(n)
    decreases n
  {
    if m < n - 1 {
      Pow16Increasing(m, n - 1);
    }
  }

  /** A word packed as a top byte, a next byte and a low part below `b`
      reads back field by field. */
  lemma Unpack(top: nat, next: nat, low: nat, b: nat)
    requires next < 256 && low < b
    ensures (top * (b * 256) + next * b + low) / (b * 256) == top
    ensures ((top * (b * 256) + next * b + low) / b) % 256 == next
    ensures (top * (b * 256) + next * b + low) % b == low
  {
    var p := top * (b * 256) + next * b + low;
    assert p == (top * 256 + next) * b + low;
    DivModUnique(top * 256 + next, low, b);
    DivModUnique(top, next, 256);
    assert p == top * (b * 256) + (next * b + low);
    assert next * b + low < b * 256 by {
      assert (next + 1) * b <= 256 * b by { MulCancel(256, next + 1, b); }
    }
    DivModUnique(top, next * b + low, b * 256);
  }

  /** The three fields read back from the packed word, for any address
      that fits below the comparison byte. */
  lemma ParamFields(oracle: nat)
    requires oracle < TWO_240
    ensures Param(oracle) / TWO_248 == ORACLE_ID
    ensures (Param(oracle) / TWO_240) % 256 == 1
    ensures Param(oracle) % TWO_240 == oracle
  {
    Unpack(ORACLE_ID, 1, oracle, TWO_240);
  }

  /** The forty digits after the prefix of an address parse to a value
      below 16^40. */
  lemma AddressDigitsParse(address: string)
    requires |address| == 42 && forall i :: 2 <= i < 42 ==> IsHexDigit(address[i])
    ensures ParseHex(Slice2(address)).Some?
    ensures ParseHex(Slice2(address)).value < Pow16(40)
  {
    var digits := Slice2(address);
    assert forall i :: 0 <= i < |digits| ==> digits[i] == address[i + 2];
  }

  /** Every 40-digit address is below 2^160, far below the comparison byte,
      so its parameter always decodes back to it. */
  lemma AddressFitsParam(address: string)
    requires |address| == 42 && forall i :: 2 <= i < 42 ==> IsHexDigit(address[i])
    ensures ParseHex(Slice2(address)).Some?
    ensures
      var oracle := ParseHex(Slice2(address)).value;
      && oracle < TWO_240
      && Param(oracle) % TWO_240 == oracle
      && Param(oracle) / TWO_248 == ORACLE_ID
  {
    AddressDigitsParse(address);
    var oracle := ParseHex(Slice2(address)).value;
    Pow16Increasing(40, 60);
    ParamFields(oracle);
  }

  /** What the script asks of the ACL when its arguments are complete. */
  datatype Grant = Grant(dao: string, app: string, grantee: string, params: seq<nat>)

  /** The script's outcome: too few arguments (nothing is granted), an
      oracle address that does not parse (the error is logged), or the
      grant it requests. */
  datatype Plan = MissingArguments(got: nat) | BadOracleAddress | Requests(grant: Grant)

  /** The script body for process.argv, the checks against the live DAO
      (and whether they fail) left out. */
  function SetTokenOracle(argv: seq<string>): (p: Plan)
    ensures |argv| < 7 ==> p.MissingArguments?
    ensures |argv| >= 7 && ParseHex(Slice2(argv[6])).Some? ==>
      && p.Requests?
      && p.grant.dao == argv[4]
      && p.grant.app == argv[5]
      && p.grant.grantee == (if |argv| == 7 then ANY_ENTITY else argv[7])
      && p.grant.params == [Param(ParseHex(Slice2(argv[6])).value)]
    ensures |argv| >= 7 && ParseHex(Slice2(argv[6])).None? ==> p == BadOracleAddress
  {
    var args := if |argv| >= 4 then argv[4..] else [];
    if |args| < 3 then MissingArguments(|args|)
    else
      var grantee := if |args| > 3 then args[3] else ANY_ENTITY;
      match ParseHex(Slice2(args[2]))
      case None => BadOracleAddress
      case Some(oracle) => Requests(Grant(args[0], args[1], grantee, [Param(oracle)]))
  }
}
